=== FILE: README.md ===
# Master-data management core, modelled in Dafny

This project models the sequential logic of a small master-data management
service with two sides joined by an in-memory event bus:

- **Product information (PIM).** Typologies are category schemas made of
  ordered form fields. Products carry a free-form attribute map that is
  validated against their typology. The two use cases are *create product*
  and *update product attributes*. Products live in a store keyed by EAN;
  typologies live in a read-only store built from seeds.
- **Digital assets (DAM).** A batch upload parses each file name with the
  pattern `EAN(\w+)_SKU(\w+).*?\.(\w+)$`, ignoring case. It stores one media
  record, runs the format handlers that accept the extension, and publishes
  an upload event. An auto-link reactor subscribes to that event. It looks
  the media up by file name and appends a link (ean, sku, media id). A batch
  auto-link does the same from file names, with the unanchored pattern
  `EAN(\w+)_SKU(\w+)`.
- **Event bus.** Publishing hands the event to every subscriber. The bus
  finishes when all of them have finished, and faults if any of them faulted.

The model is functional. Stores are maps and sequences. Each use case is a
pure function from (state, command) to (new state, published events or
step log, outcome). A failure keeps whatever the program had already written
when it threw.

- Regular expressions are read with .NET's leftmost-first backtracking. A
  candidate match is four positions in the name. The reported match is the
  least candidate in the order the engine tries them.
- `FileNamePattern.FindMatch` finds that match with a brute-force search and
  is proved to return exactly it.
- Fresh GUIDs come from a counter in the media state.

Modules follow the layout of the program's projects:

| module | file |
|---|---|
| `Results` | `results.dfy` |
| `Strings` | `strings.dfy` |
| `PimDomain` | `pim_domain.dfy` |
| `PimRepositories` | `pim_repositories.dfy` |
| `PimUseCases` | `pim_usecases.dfy` |
| `Events` | `events.dfy` |
| `EventBus` | `event_bus.dfy` |
| `FileNamePattern` | `file_names.dfy` |
| `DamDomain` | `dam_domain.dfy` |
| `DamRepositories` | `dam_repositories.dfy` |
| `DamUseCases` | `dam_usecases.dfy` |
| `Wiring` | `wiring.dfy`, the host's composition |

Worked examples live in `FileNameExamples` and `PimExamples`.

The media use cases take the two parsers as function parameters. Their
lemmas therefore hold for any parser. `Wiring` plugs in `Parse` and
`ParseCodes`, the models of the two regular expressions.

Two consequences of the code:

- **The sku group is the whole word run after "_SKU".** `\w` includes `_`,
  so "EAN123_SKU456_front.jpg" yields sku "456_front", not "456"
  (`FileNamePattern.FirstSkuIsWholeWordRun`, `FileNameExamples.ParseExample`).
- **The media lookup is exact-case.** The repository is a dictionary with
  the default comparer, and it is consulted under the last path component
  of the name. It is not case-insensitive.

## Model

| member | source | states |
|---|---|---|
| PimDomain.NewProduct | src/Pim.Domain/Entities.cs:14-21 | a new product has the given ean, name and typology code and no attributes |
| PimDomain.KindsOverlapOnlyInNumber | src/Pim.Domain/Entities.cs:33-39 | the kind test: Text, Boolean and Date values are also accepted as Number (they are convertible), no value has two of Text, Boolean, Date, and null has no kind |
| PimDomain.Walk | src/Pim.Domain/Entities.cs:26-43 | the schema walk passes exactly when every field accepts the input; on success it has written every given field's value over the old map; on failure some field is the first to reject, its error is reported, and only the fields before it have been written |
| PimDomain.CopyAbsent | src/Pim.Domain/Entities.cs:45-46 | the extras loop adds every input key not yet present with its input value and never overwrites a present key |
| PimDomain.UpdateAttributes | src/Pim.Domain/Entities.cs:23-47 | no key is ever removed; success iff the input conforms to every field (required ones given, given ones of the right kind, Number accepting any convertible value); on success given schema values overwrite and other keys are only filled in; on failure the first rejecting field decides the error and earlier fields are already written |
| PimDomain.FirstRejectExists | src/Pim.Domain/Entities.cs:26-39 | an input that does not conform to the fields has a field that is the first to reject it |
| PimDomain.FirstRejectUnique | src/Pim.Domain/Entities.cs:26-39 | at most one field is the first to reject an input, so the reported error is determined |
| PimDomain.OutcomeIgnoresStoredAttributes | src/Pim.Domain/Entities.cs:28-39 | whether the update throws, and with which error, depends on the schema and the input only, not on the stored attributes |
| PimDomain.MergedIntoNothing | src/Pim.Domain/Entities.cs:41-46 | merging an input into an empty map gives back exactly the input |
| PimDomain.SuccessConforms | src/Pim.Domain/Entities.cs:31-46 | a successful update of well-typed attributes leaves attributes that the schema accepts |
| PimDomain.UpdateIdempotent | src/Pim.Domain/Entities.cs:41-46 | repeating a successful update with the same typology and input changes nothing |
| PimRepositories.AddProduct | src/Pim.Infrastructure.InMemory/Repositories.cs:9-13 | the product is stored under its ean, replacing any earlier one; other keys keep their products |
| PimRepositories.GetProduct | src/Pim.Infrastructure.InMemory/Repositories.cs:15-19 | a product is returned exactly when the ean exists, and it is the stored one |
| PimRepositories.ExistsProduct | src/Pim.Infrastructure.InMemory/Repositories.cs:18-19 | an ean exists exactly when the lookup finds a product under it |
| PimRepositories.ExistsIffAdded | src/Pim.Infrastructure.InMemory/Repositories.cs:9-19 | after a sequence of adds, an ean exists exactly when it was in the store or some added product has it |
| PimRepositories.GetFindsLastAdded | src/Pim.Infrastructure.InMemory/Repositories.cs:9-16 | a lookup returns the last product added under that ean |
| PimRepositories.AddedKeepsOthers | src/Pim.Infrastructure.InMemory/Repositories.cs:11 | adds under other eans leave a stored product in place |
| PimRepositories.BuildFrom | src/Pim.Infrastructure.InMemory/Repositories.cs:25-28 | building from seeds on top of a store succeeds exactly when the seed codes are distinct and new, keys each seed by its code, and otherwise names a clashing code |
| PimRepositories.BuildTypologies | src/Pim.Infrastructure.InMemory/Repositories.cs:25-28 | the typology store builds exactly when no two seeds share a code, holds every seed under its code and nothing else, and otherwise reports a duplicated code |
| PimRepositories.GetTypology | src/Pim.Infrastructure.InMemory/Repositories.cs:29-30 | a typology is returned exactly when its code (case-sensitive) is stored, and it is the seed with that code |
| PimUseCases.CreateProduct | src/Pim.Application/UseCases.cs:33-46 | create fails exactly with the first applicable error (existing ean, unknown typology, first rejecting field); a failure stores and publishes nothing; success adds only the new ean, keeps other products, stores the given name and the typology's code, and publishes exactly one creation event for the ean |
| PimUseCases.CreatedAttributesAreInput | src/Pim.Application/UseCases.cs:41-42 | a created product holds exactly the attributes it was created with |
| PimUseCases.UpdateProductAttributes | src/Pim.Application/UseCases.cs:60-69 | unknown ean fails "not found" and an unregistered typology fails "typology not found", both leaving the store alone; otherwise the update fails exactly when the input does not conform, with the error of the first rejecting field, the stored product's attributes are the in-place update's result (kept on failure), ean, name and code never change, other products are untouched, and nothing is published |
| PimUseCases.FailedUpdateKeepsConformance | src/Pim.Application/UseCases.cs:65-68 | when field names are unique, a failed update of conforming attributes still leaves conforming attributes |
| PimUseCases.CreateKeepsConsistent | src/Pim.Application/UseCases.cs:33-46 | create keeps every stored product keyed by its ean, with a registered typology whose schema accepts its attributes |
| PimUseCases.ReportsFirstReject | src/Pim.Domain/Entities.cs:26-39 | a failed update reports the error of the first field that rejects the input, and such a field exists |
| PimUseCases.UpdateKeepsConsistent | src/Pim.Application/UseCases.cs:60-69 | update keeps that invariant too, failed updates included, when field names are unique |
| PimExamples.CreateTShirt | tests/UnitTests/CreateProductTests.cs:24-44 | creating the test T-shirt stores size "M" under "EAN1" and publishes one creation event for "EAN1" |
| PimExamples.CreateTShirtTwice | src/Pim.Application/UseCases.cs:35-36 | creating the same product again fails as a duplicate and changes nothing |
| PimExamples.CreateWithoutPrice | src/Pim.Domain/Entities.cs:28-29 | leaving out a required field fails as missing that field, and nothing is stored |
| Strings.EqualsIgnoreCaseIsLowerEquality | src/Dam.Infrastructure.InMemory/Repositories.cs:28-37 | ordinal ignore-case equality is equality after lower-casing |
| Strings.FileName | src/Dam.Infrastructure.InMemory/Repositories.cs:18 | the last path component has no '/', and is all of the path or preceded by '/' |
| Strings.FileNameIsSuffix | src/Dam.Infrastructure.InMemory/Repositories.cs:18 | the last path component is the suffix of the path after its last '/' |
| Strings.FileNameOfPlain | src/Dam.Application/UseCases.cs:49-50 | a name is its own file name exactly when it contains no '/' |
| Strings.FileNameIdempotent | src/Dam.Application/UseCases.cs:65-69 | stripping twice is stripping once, so the auto-link lookup of a stripped name strips nothing more |
| FileNamePattern.FindMatch | src/Dam.Application/UseCases.cs:50 | no match is reported exactly when the pattern has no match; otherwise the reported match is the first candidate the backtracking engine tries |
| FileNamePattern.FirstUnique | src/Dam.Application/UseCases.cs:50 | the reported match is unique |
| FileNamePattern.FirstSkuIsWholeWordRun | src/Dam.Application/UseCases.cs:50-52 | the reported sku runs to the end of its word run, underscores included |
| FileNamePattern.FirstEanIsLongest | src/Dam.Application/UseCases.cs:50-52 | no later "_SKU" inside the matched span could have ended the ean group: the ean is the longest one followed by "_SKU" |
| FileNamePattern.MatchIsDecomposition | src/Dam.Application/UseCases.cs:48-50 | a match splits the name into prefix, "EAN" in any case, a non-empty word run for the ean, "_SKU" in any case, a non-empty word run for the sku, a middle without newlines, "." and a non-empty word-run extension |
| FileNamePattern.DecompositionMatches | src/Dam.Application/UseCases.cs:48-50 | every such split, with the literals in any case and word-character groups, is a match |
| FileNamePattern.Parse | src/Dam.Application/UseCases.cs:46-53 | the parser throws exactly when the directory-stripped name does not match; otherwise it returns the first match's ean and sku as written and its extension lower-cased |
| FileNamePattern.ParseCodes | src/Dam.Application/UseCases.cs:66-72 | the code pattern fails exactly when there is no match; otherwise it returns the first match's ean and sku |
| FileNameExamples.ParseExample | src/Dam.Application/UseCases.cs:48-52 | the commented example parses to ean "12345", sku "56789_front", format "jpg" |
| FileNameExamples.ParseRejectsBadName | src/Dam.Application/UseCases.cs:51 | a name without "EAN" is rejected as a bad file name |
| EventBus.Publish | src/Mdm.Core/InMemoryEventBus.cs:14-18 | one delivery is recorded per subscriber, and only a publish to some subscriber can fault |
| EventBus.PublishCallsEachInOrder | src/Mdm.Core/InMemoryEventBus.cs:16 | every subscriber is handed the same event exactly once, in collection order |
| EventBus.PublishOne | src/Mdm.Core/InMemoryEventBus.cs:14-18 | publishing to one subscriber is one call of its handler on the current state, keeping its effect and its fault; with the append lemma this makes the final state each subscriber's reaction applied in order |
| EventBus.PublishToNobody | src/Mdm.Core/InMemoryEventBus.cs:16-17 | with no subscribers, publishing changes nothing and does not fault |
| EventBus.PublishAppend | src/Mdm.Core/InMemoryEventBus.cs:16-17 | publishing to two groups of subscribers is publishing to the first, then to the second |
| EventBus.FaultsIffSomeSubscriberFaults | src/Mdm.Core/InMemoryEventBus.cs:17 | a publish faults exactly when some subscriber faulted, and all subscribers still run |
| EventBus.PublishToInertSubscribers | src/Mdm.Core/InMemoryEventBus.cs:14-18 | subscribers that ignore the event leave the state unchanged and the publish does not fault |
| DamRepositories.AddMedia | src/Dam.Infrastructure.InMemory/Repositories.cs:11-15 | media are stored under their exact file name, replacing an earlier one of that name; other entries and the links are unchanged |
| DamRepositories.GetByFileName | src/Dam.Infrastructure.InMemory/Repositories.cs:17-18 | a media is found exactly when the last path component is a stored key (exact case), and it is that entry; whatever is found was stored under a name without '/' |
| DamRepositories.AddLink | src/Dam.Infrastructure.InMemory/Repositories.cs:20-24 | the links grow by exactly the new one at the end; earlier links and the media are unchanged |
| DamRepositories.CanHandle | src/Dam.Infrastructure.InMemory/Repositories.cs:28-37 | a handler accepts a format exactly when the lower-cased format is one it is written for: jpg or jpeg for JPEG, pdf for PDF |
| DamRepositories.CanHandleIgnoresCase | src/Dam.Infrastructure.InMemory/Repositories.cs:28-37 | a handler's answer does not depend on the case of the format |
| DamRepositories.CanHandleLowerCase | src/Dam.Infrastructure.InMemory/Repositories.cs:28-37 | on lower-case formats, JPEG accepts exactly "jpg" and "jpeg" and PDF exactly "pdf" |
| DamRepositories.HandlersDisjoint | src/Dam.Infrastructure.InMemory/Repositories.cs:28-37 | no format is accepted by both handlers |
| DamUseCases.Link | src/Dam.Application/UseCases.cs:79-84 | when the name resolves, exactly one link with the given codes and the found media's id is appended under a fresh id; otherwise nothing changes; media are never touched |
| DamUseCases.LinkTwiceDuplicates | src/Dam.Application/UseCases.cs:79-84 | linking twice adds two links that differ only in their ids |
| DamUseCases.HandleEvent | src/Dam.Application/UseCases.cs:87-93 | the reactor links an upload event by its codes and file name, ignores a creation event, and never faults |
| DamUseCases.ReactorNeverFaults | src/Dam.Application/UseCases.cs:87-93 | publishing to any number of reactors does not fault |
| DamUseCases.Accepting | src/Dam.Application/UseCases.cs:39 | a handler is selected for a format exactly when it is registered and accepts that format |
| DamUseCases.RunHandlers | src/Dam.Application/UseCases.cs:39-40 | running the handlers changes no state, and every recorded step is one registered, accepting handler processing this media |
| DamUseCases.RunHandlersSteps | src/Dam.Application/UseCases.cs:39-40 | running handlers leaves the state alone and records one step per accepting handler in order; a format nobody accepts runs none and is no error |
| DamRepositories.Process | src/Dam.Infrastructure.InMemory/Repositories.cs:31-37 | both handlers' processing completes at once and leaves every state as it was, so only the step log records it |
| DamUseCases.UploadOne | src/Dam.Application/UseCases.cs:35-42 | one name fails exactly when the parser rejects it, and then nothing is stored, run or published |
| DamUseCases.UploadOneSteps | src/Dam.Application/UseCases.cs:35-42 | a good name stores one media under the unstripped name with the next id, then runs each accepting handler, then publishes exactly one upload event, and completes |
| DamUseCases.UploadBatch | src/Dam.Application/UseCases.cs:31-44 | a batch only ever throws for a name of the batch that the parser rejects |
| DamUseCases.UploadBatchSingle | src/Dam.Application/UseCases.cs:33-43 | a batch of one name is that name's upload |
| DamUseCases.UploadBatchAppend | src/Dam.Application/UseCases.cs:33-43 | a batch of two parts is the first part and, if it completes, the second from where the first left off |
| DamUseCases.UploadBatchPassesIffAllGood | src/Dam.Application/UseCases.cs:33-51 | a batch completes exactly when the parser accepts every name |
| DamUseCases.UploadBatchStopsAtFirstBadName | src/Dam.Application/UseCases.cs:33-51 | at the first bad name the batch has done exactly the uploads of the names before it, throws for that name without storing it, and leaves later names untouched |
| DamUseCases.PublishToReactor | src/Mdm.Api/Program.cs:39-40 | publishing with the reactor as the only subscriber is one reactor call |
| DamUseCases.PlainNameIsLinked | src/Dam.Application/UseCases.cs:36-42 | with the reactor subscribed, a good name without directory part gives one media under the next id and one link to it under the id after |
| DamUseCases.DirectoryNameIsNotLinked | src/Dam.Infrastructure.InMemory/Repositories.cs:11-18 | when nothing is stored under the stripped name, a good name with a directory part is stored under the full name as the next media, but looked up stripped, so no link is made and only one identifier is used |
| DamUseCases.DirectoryNameLinksOlderMedia | src/Dam.Application/UseCases.cs:79-84 | when a media is already stored under the stripped name, a good name with a directory part is stored under the full name, and its codes are linked to that older media under the following identifier, so two identifiers are used |
| DamUseCases.ReuploadReplacesAndLinksAgain | src/Dam.Infrastructure.InMemory/Repositories.cs:11-24 | uploading a name twice replaces the media and leaves two links, the first naming the replaced media |
| DamUseCases.AutoLinkOneAppends | src/Dam.Application/UseCases.cs:65-73 | one auto-link entry leaves media alone and appends exactly one link for a matching, found stripped name, and none otherwise |
| DamUseCases.AutoLinkOne | src/Dam.Application/UseCases.cs:63-74 | one entry leaves media alone, keeps earlier links, and appends at most one link, using one fresh identifier per link |
| DamUseCases.AutoLinkBatchAppendsTargets | src/Dam.Application/UseCases.cs:61-76 | a batch auto-link appends, in order and with fresh ids, one link per name that matches and resolves, and silently skips the rest |
| DamUseCases.AutoLinkBatch | src/Dam.Application/UseCases.cs:61-76 | a batch auto-link leaves media alone, keeps earlier links, and appends at most one link per name, one fresh identifier per link |
| DamUseCases.LinksFromAppend | src/Dam.Application/UseCases.cs:63-72 | link ids continue across consecutive entries |
| DamUseCases.LinksFromAt | src/Dam.Application/UseCases.cs:72 | the link made for the x-th target carries that target's ean, sku and media id under the x-th fresh identifier |
| Wiring.SeedsBuild | src/Mdm.Api/Program.cs:44-61 | the two seeded typologies have distinct codes, so the store builds and holds exactly TEXTILE and ELECTRO |
| Wiring.SeedsHaveUniqueNames | src/Mdm.Api/Program.cs:46-59 | each seeded typology names every field once, as the consistency of updates asks |
| Wiring.UploadExample | src/Mdm.Api/Program.cs:39-70 | uploading the example name through the wired bus gives media 0 and link 1 under ean "12345", sku "56789_front" |
| Wiring.ProductCreatedLeavesMediaAlone | src/Mdm.Api/Program.cs:39-40 | a product creation event published on the wired bus changes nothing on the media side |
| Wiring.AutoLinkStoredName | src/Dam.Application/UseCases.cs:63-73 | auto-linking a stored plain name adds one link with the codes the code pattern finds |

## Left out

- Concurrency. `async`/`await` and `Task.WhenAll` are modelled as an in-order fold over the subscribers, and a subscriber that throws synchronously is treated like one whose task faulted.
- The exists-then-add race in create (src/Pim.Application/UseCases.cs:35,44). It only arises under concurrent requests.
- `CancellationToken`. Nothing in the core reads it.
- `Guid.NewGuid`. Media and link ids come from a counter, so ids are distinct but not random. `Product.Id` is dropped because nothing in the core reads it.
- The query interactors: product by EAN, list products, media links for a product, and list media. Most of them call repository methods that neither the ports nor the in-memory stores define; the product-by-EAN one only delegates to `GetProduct`.
- HTTP endpoints, JWT authentication, Swagger and dependency injection in src/Mdm.Api/Program.cs. Only the seeded typologies and the handler and subscriber registrations are kept (`Wiring`).
- Floating point. Numeric attribute values are carried as opaque reals, and nothing computes on them.
- .NET string semantics are approximated:
  - `\w` is ASCII `[A-Za-z0-9_]`.
  - Ignore-case comparison and `ToLowerInvariant` fold ASCII letters only.
  - `Path.GetFileName` treats '/' as the only separator.
- FileNamePattern.IsMatch: `$` is read as the end of the name only. .NET's `$` also matches just before a final line feed, and that case is not modelled.
- DamRepositories.Process: both handlers' processing is a placeholder that completes at once, so it is the identity on the state.
- PimUseCases.FailedUpdateKeepsConformance: this is stated only for schemas with unique field names. With a repeated name, an earlier write can be replaced by a value that a later, stricter field rejects.
- PimDomain.SuccessConforms: this needs the stored attributes to be well-typed beforehand. An optional field left absent from the input keeps whatever value was stored.

=== FILE: dam_domain.dfy ===
/** The media catalog's records. Identifiers are drawn from a counter in place of random GUIDs. */
module DamDomain {

  type Id = nat

  datatype Media = Media(id: Id, fileName: string, ean: string, sku: string, format: string)

  datatype MediaLink = MediaLink(id: Id, ean: string, sku: string, mediaId: Id)
}

=== FILE: dam_repositories.dfy ===
/** The in-memory media store and the two example format handlers. */
module DamRepositories {
  import opened Results
  import opened Strings
  import opened DamDomain

  /** Media keyed by the exact file name they were added with, and the append-only list of links. */
  datatype MediaStore = MediaStore(byFile: map<string, Media>, links: seq<MediaLink>)

  const EmptyStore := MediaStore(map[], [])

  /** Stores `media` under its exact file name, replacing an earlier media of that name. */
  function AddMedia(store: MediaStore, media: Media): (r: MediaStore)
    ensures media.fileName in r.byFile && r.byFile[media.fileName] == media
    ensures r.byFile.Keys == store.byFile.Keys + {media.fileName}
    ensures forall f :: f in store.byFile && f != media.fileName ==> r.byFile[f] == store.byFile[f]
    ensures r.links == store.links
  {
    store.(byFile := store.byFile[media.fileName := media])
  }

  /**
   * Looks the media up under the last path component of `fileName`, with
   * exact case; a media stored under a name with a directory part is
   * therefore never found.
   */
  function GetByFileName(store: MediaStore, fileName: string): (r: Option<Media>)
    ensures r.Some? <==> FileName(fileName) in store.byFile
    ensures r.Some? ==> r.value == store.byFile[FileName(fileName)]
    ensures r.Some? ==> exists key :: key in store.byFile && '/' !in key && r.value == store.byFile[key]
  {
    var key := FileName(fileName);
    if key in store.byFile then Some(store.byFile[key]) else None
  }

  /** Appends `link`; earlier links are kept and nothing is deduplicated. */
  function AddLink(store: MediaStore, link: MediaLink): (r: MediaStore)
    ensures |r.links| == |store.links| + 1
    ensures r.links[..|store.links|] == store.links && r.links[|store.links|] == link
    ensures r.byFile == store.byFile
  {
    store.(links := store.links + [link])
  }

  /** The registered format handlers. */
  datatype Handler = JpegHandler | PdfHandler

  /** The lower-case spellings of the formats a handler is written for. */
  function AcceptedFormats(h: Handler): set<string> {
    match h
    case JpegHandler => {"jpg", "jpeg"}
    case PdfHandler => {"pdf"}
  }

  /** A handler accepts a format when its lower-cased spelling is one the handler is written for. */
  function CanHandle(h: Handler, format: string): (r: bool)
    ensures r <==> LowerStr(format) in AcceptedFormats(h)
  {
    EqualsIgnoreCaseIsLowerEquality(format, "jpg");
    EqualsIgnoreCaseIsLowerEquality(format, "jpeg");
    EqualsIgnoreCaseIsLowerEquality(format, "pdf");
    assert LowerStr("jpg") == "jpg" && LowerStr("jpeg") == "jpeg" && LowerStr("pdf") == "pdf";
    match h
    case JpegHandler => EqualsIgnoreCase(format, "jpg") || EqualsIgnoreCase(format, "jpeg")
    case PdfHandler => EqualsIgnoreCase(format, "pdf")
  }

  /** Processing is a placeholder in both handlers: it completes without touching any state. */
  function Process<S>(h: Handler, media: Media, s: S): (r: S)
    ensures r == s
  {
    s
  }

  /** A handler's answer depends on the format's letters only, not their case. */
  lemma {:induction false} CanHandleIgnoresCase(h: Handler, format: string)
    ensures CanHandle(h, format) == CanHandle(h, LowerStr(format))
  {
    EqualsIgnoreCaseIsLowerEquality(format, "jpg");
    EqualsIgnoreCaseIsLowerEquality(format, "jpeg");
    EqualsIgnoreCaseIsLowerEquality(format, "pdf");
    EqualsIgnoreCaseIsLowerEquality(LowerStr(format), "jpg");
    EqualsIgnoreCaseIsLowerEquality(LowerStr(format), "jpeg");
    EqualsIgnoreCaseIsLowerEquality(LowerStr(format), "pdf");
    assert LowerStr(LowerStr(format)) == LowerStr(format);
  }

  /** On lower-case formats, the handlers accept exactly these spellings. */
  lemma {:induction false} CanHandleLowerCase(format: string)
    requires LowerStr(format) == format
    ensures CanHandle(JpegHandler, format) <==> format == "jpg" || format == "jpeg"
    ensures CanHandle(PdfHandler, format) <==> format == "pdf"
  {
    EqualsIgnoreCaseIsLowerEquality(format, "jpg");
    EqualsIgnoreCaseIsLowerEquality(format, "jpeg");
    EqualsIgnoreCaseIsLowerEquality(format, "pdf");
    assert LowerStr("jpg") == "jpg";
    assert LowerStr("jpeg") == "jpeg";
    assert LowerStr("pdf") == "pdf";
  }

  /** No format is accepted by both handlers. */
  lemma HandlersDisjoint(format: string)
    ensures !(CanHandle(JpegHandler, format) && CanHandle(PdfHandler, format))
  {
    if EqualsIgnoreCase(format, "pdf") {
      assert Lower(format[0]) == 'p';
    }
  }
}

=== FILE: dam_usecases.dfy ===
/**
 * The media use cases: the batch upload, the link reactor with its direct
 * link entry point, and the batch auto-link.
 */
module DamUseCases {
  import opened Results
  import opened Strings
  import opened Events
  import opened EventBus
  import opened DamDomain
  import opened DamRepositories
  import opened FileNamePattern

  /** The media store and the supply of fresh identifiers. */
  datatype DamState = DamState(store: MediaStore, nextId: Id)

  /** The bus subscribers that exist: the auto-link reactor. */
  datatype Subscriber = AutoLinker

  datatype DamError = BadFileName(file: string) | SubscriberFault

  /** One observable step of an upload. */
  datatype Step =
    | Stored(media: Media)
    | Processed(handler: Handler, mediaId: Id)
    | Published(event: Event)

  datatype UploadResult = UploadResult(state: DamState, log: seq<Step>, outcome: Outcome<DamError>)

  /**
   * The parsers the two use cases apply to a file name. The wired system
   * passes `Parse` and `ParseCodes`; the properties below hold for any
   * parser, so they are stated without unfolding the pattern search.
   */
  type UploadParser = string -> Option<Parsed>
  type CodeParser = string -> Option<CodePair>

  /**
   * The direct link entry point: resolves the file name and appends one
   * link to the media found, or does nothing when no media is found.
   */
  function Link(s: DamState, ean: string, sku: string, fileName: string): (r: DamState)
    ensures r.store.byFile == s.store.byFile
    ensures GetByFileName(s.store, fileName).None? ==> r == s
    ensures GetByFileName(s.store, fileName).Some? ==>
              && r.store.links == s.store.links + [MediaLink(s.nextId, ean, sku, GetByFileName(s.store, fileName).value.id)]
              && r.nextId == s.nextId + 1
  {
    match GetByFileName(s.store, fileName)
    case None => s
    case Some(media) => DamState(AddLink(s.store, MediaLink(s.nextId, ean, sku, media.id)), s.nextId + 1)
  }

  /** Linking twice gives two links with the same codes and media, under distinct identifiers. */
  lemma LinkTwiceDuplicates(s: DamState, ean: string, sku: string, fileName: string)
    requires GetByFileName(s.store, fileName).Some?
    ensures var twice := Link(Link(s, ean, sku, fileName), ean, sku, fileName);
            var n := |s.store.links|;
            && |twice.store.links| == n + 2
            && twice.store.links[n].id != twice.store.links[n + 1].id
            && twice.store.links[n].(id := 0) == twice.store.links[n + 1].(id := 0)
  {
  }

  /** The reactor: an upload event is linked by its codes and file name; any other event is ignored. */
  function HandleEvent(sub: Subscriber, e: Event, s: DamState): (r: Reaction<DamState>)
    ensures r.ok
    ensures e.ProductCreated? ==> r.state == s
    ensures e.MediaUploaded? ==> r.state == Link(s, e.ean, e.sku, e.fileName)
  {
    match e
    case MediaUploaded(fileName, ean, sku) => Reaction(Link(s, ean, sku, fileName), true)
    case ProductCreated(_) => Reaction(s, true)
  }

  /** The reactor never faults, so a publish to any list of reactors completes. */
  lemma ReactorNeverFaults(subs: seq<Subscriber>, e: Event, s: DamState)
    ensures !Publish(subs, HandleEvent, e, s).faulted
  {
    FaultsIffSomeSubscriberFaults(subs, HandleEvent, e, s);
  }

  /** Runs, in registration order, every handler that accepts the format. */
  function RunHandlers(handlers: seq<Handler>, format: string, media: Media, s: DamState): (r: (DamState, seq<Step>))
    decreases |handlers|
    ensures r.0 == s
    ensures |r.1| <= |handlers|
    ensures forall x :: 0 <= x < |r.1| ==>
              && r.1[x].Processed? && r.1[x].mediaId == media.id
              && r.1[x].handler in handlers && CanHandle(r.1[x].handler, format)
  {
    if |handlers| == 0 then (s, [])
    else
      var (s1, here) := if CanHandle(handlers[0], format)
                        then (Process(handlers[0], media, s), [Processed(handlers[0], media.id)])
                        else (s, []);
      var (s2, rest) := RunHandlers(handlers[1..], format, media, s1);
      (s2, here + rest)
  }

  /** The handlers that accept `format`, in registration order. */
  function Accepting(handlers: seq<Handler>, format: string): (r: seq<Handler>)
    ensures forall h :: h in r <==> h in handlers && CanHandle(h, format)
    ensures |r| <= |handlers|
  {
    if |handlers| == 0 then []
    else (if CanHandle(handlers[0], format) then [handlers[0]] else []) + Accepting(handlers[1..], format)
  }

  /** Handler processing leaves the state alone and records one step per accepting handler, in order. */
  lemma {:induction false} RunHandlersSteps(handlers: seq<Handler>, format: string, media: Media, s: DamState)
    decreases |handlers|
    ensures RunHandlers(handlers, format, media, s).0 == s
    ensures var acc := Accepting(handlers, format);
            RunHandlers(handlers, format, media, s).1 == seq(|acc|, x requires 0 <= x < |acc| => Processed(acc[x], media.id))
  {
    if |handlers| > 0 {
      RunHandlersSteps(handlers[1..], format, media, s);
    }
  }

  /** Uploads one name: parse, store, process, publish. */
  function UploadOne(parse: UploadParser, handlers: seq<Handler>, subs: seq<Subscriber>, file: string, s: DamState): (r: UploadResult)
    ensures r.outcome.Fail? <==> parse(file).None?
    ensures r.outcome.Fail? ==> r == UploadResult(s, [], Fail(BadFileName(file)))
  {
    match parse(file)
    case None => UploadResult(s, [], Fail(BadFileName(file)))
    case Some(p) =>
      var media := Media(s.nextId, file, p.ean, p.sku, p.format);
      var stored := DamState(AddMedia(s.store, media), s.nextId + 1);
      var (processed, steps) := RunHandlers(handlers, p.format, media, stored);
      var event := MediaUploaded(file, p.ean, p.sku);
      var d := Publish(subs, HandleEvent, event, processed);
      ReactorNeverFaults(subs, event, processed);
      UploadResult(d.state, [Stored(media)] + steps + [Published(event)],
                   if d.faulted then Fail(SubscriberFault) else Pass)
  }

  /**
   * A good name stores exactly one media under the unstripped name, runs
   * every accepting handler in registration order, then publishes exactly
   * one upload event to the subscribers.
   */
  lemma UploadOneSteps(parse: UploadParser, handlers: seq<Handler>, subs: seq<Subscriber>, file: string, s: DamState)
    requires parse(file).Some?
    ensures var r := UploadOne(parse, handlers, subs, file, s);
            var p := parse(file).value;
            var media := Media(s.nextId, file, p.ean, p.sku, p.format);
            var acc := Accepting(handlers, p.format);
            var event := MediaUploaded(file, p.ean, p.sku);
            && r.outcome.Pass?
            && r.log == [Stored(media)] + seq(|acc|, x requires 0 <= x < |acc| => Processed(acc[x], media.id)) + [Published(event)]
            && r.state == Publish(subs, HandleEvent, event, DamState(AddMedia(s.store, media), s.nextId + 1)).state
  {
    var p := parse(file).value;
    var media := Media(s.nextId, file, p.ean, p.sku, p.format);
    RunHandlersSteps(handlers, p.format, media, DamState(AddMedia(s.store, media), s.nextId + 1));
  }

  /** Uploads the names in order, stopping at the first one that throws. */
  function UploadBatch(parse: UploadParser, handlers: seq<Handler>, subs: seq<Subscriber>, files: seq<string>, s: DamState): (r: UploadResult)
    decreases |files|
    ensures r.outcome.Fail? ==> r.outcome.error.BadFileName? && r.outcome.error.file in files
                                && parse(r.outcome.error.file).None?
  {
    if |files| == 0 then UploadResult(s, [], Pass)
    else
      var first := UploadOne(parse, handlers, subs, files[0], s);
      if first.outcome.Fail? then first
      else
        var rest := UploadBatch(parse, handlers, subs, files[1..], first.state);
        UploadResult(rest.state, first.log + rest.log, rest.outcome)
  }

  /** A batch of one name is that name's upload. */
  lemma UploadBatchSingle(parse: UploadParser, handlers: seq<Handler>, subs: seq<Subscriber>, file: string, s: DamState)
    ensures UploadBatch(parse, handlers, subs, [file], s) == UploadOne(parse, handlers, subs, file, s)
  {
    var first := UploadOne(parse, handlers, subs, file, s);
    assert [file][1..] == [];
    assert first.log + [] == first.log;
  }

  /**
   * A batch `a + b` is the batch `a` and, when that completes, the batch `b`
   * from where `a` left off, with the logs joined.
   */
  lemma {:induction false} UploadBatchAppend(parse: UploadParser, handlers: seq<Handler>, subs: seq<Subscriber>,
                                             a: seq<string>, b: seq<string>, s: DamState)
    decreases |a|
    ensures var ra := UploadBatch(parse, handlers, subs, a, s);
            var rb := UploadBatch(parse, handlers, subs, b, ra.state);
            UploadBatch(parse, handlers, subs, a + b, s)
              == if ra.outcome.Fail? then ra else UploadResult(rb.state, ra.log + rb.log, rb.outcome)
  {
    if |a| == 0 {
      assert a + b == b;
      assert [] + UploadBatch(parse, handlers, subs, b, s).log == UploadBatch(parse, handlers, subs, b, s).log;
    } else {
      var first := UploadOne(parse, handlers, subs, a[0], s);
      assert (a + b)[0] == a[0];
      assert (a + b)[1..] == a[1..] + b;
      if first.outcome.Pass? {
        UploadBatchAppend(parse, handlers, subs, a[1..], b, first.state);
        var ra := UploadBatch(parse, handlers, subs, a[1..], first.state);
        var rb := UploadBatch(parse, handlers, subs, b, ra.state);
        AppendAssociates(first.log, ra.log, rb.log);
      }
    }
  }

  /** Publishing to the reactor alone is one call of it. */
  lemma PublishToReactor(e: Event, s: DamState)
    ensures Publish([AutoLinker], HandleEvent, e, s) == Dispatch(HandleEvent(AutoLinker, e, s).state, [(AutoLinker, e)], false)
  {
    var first := HandleEvent(AutoLinker, e, s);
    assert [AutoLinker][1..] == [];
    PublishToNobody(HandleEvent, e, first.state);
  }

  /**
   * With the reactor as the only subscriber, uploading a good name without
   * a directory part stores the media under the next identifier and links
   * it by its parsed codes under the identifier after that.
   */
  lemma PlainNameIsLinked(parse: UploadParser, handlers: seq<Handler>, file: string, s: DamState)
    requires parse(file).Some? && '/' !in file
    ensures var r := UploadBatch(parse, handlers, [AutoLinker], [file], s);
            var p := parse(file).value;
            && r.outcome.Pass?
            && r.state.store.byFile == s.store.byFile[file := Media(s.nextId, file, p.ean, p.sku, p.format)]
            && r.state.store.links == s.store.links + [MediaLink(s.nextId + 1, p.ean, p.sku, s.nextId)]
            && r.state.nextId == s.nextId + 2
  {
    var p := parse(file).value;
    var media := Media(s.nextId, file, p.ean, p.sku, p.format);
    var stored := DamState(AddMedia(s.store, media), s.nextId + 1);
    UploadBatchSingle(parse, handlers, [AutoLinker], file, s);
    UploadOneSteps(parse, handlers, [AutoLinker], file, s);
    PublishToReactor(MediaUploaded(file, p.ean, p.sku), stored);
    FileNameOfPlain(file);
  }

  /**
   * With the reactor as the only subscriber, uploading a good name with a
   * directory part stores the media under the full name, but the reactor
   * looks the stripped name up, so no link is made unless a media was
   * already stored under the stripped name.
   */
  lemma DirectoryNameIsNotLinked(parse: UploadParser, handlers: seq<Handler>, file: string, s: DamState)
    requires parse(file).Some? && '/' in file && FileName(file) !in s.store.byFile
    ensures var r := UploadBatch(parse, handlers, [AutoLinker], [file], s);
            var p := parse(file).value;
            && r.outcome.Pass?
            && r.state.store.byFile == s.store.byFile[file := Media(s.nextId, file, p.ean, p.sku, p.format)]
            && r.state.store.links == s.store.links
            && r.state.nextId == s.nextId + 1
  {
    var p := parse(file).value;
    var media := Media(s.nextId, file, p.ean, p.sku, p.format);
    var stored := DamState(AddMedia(s.store, media), s.nextId + 1);
    UploadBatchSingle(parse, handlers, [AutoLinker], file, s);
    UploadOneSteps(parse, handlers, [AutoLinker], file, s);
    PublishToReactor(MediaUploaded(file, p.ean, p.sku), stored);
    FileNameOfPlain(file);
  }

  /**
   * The other case: when a media is already stored under the stripped
   * name, the reactor links the new codes to that older media, not to the
   * one just uploaded, and uses a second identifier for the link.
   */
  lemma DirectoryNameLinksOlderMedia(parse: UploadParser, handlers: seq<Handler>, file: string, s: DamState)
    requires parse(file).Some? && '/' in file && FileName(file) in s.store.byFile
    ensures var r := UploadBatch(parse, handlers, [AutoLinker], [file], s);
            var p := parse(file).value;
            && r.outcome.Pass?
            && r.state.store.byFile == s.store.byFile[file := Media(s.nextId, file, p.ean, p.sku, p.format)]
            && r.state.store.links
                 == s.store.links + [MediaLink(s.nextId + 1, p.ean, p.sku, s.store.byFile[FileName(file)].id)]
            && r.state.nextId == s.nextId + 2
  {
    var p := parse(file).value;
    var media := Media(s.nextId, file, p.ean, p.sku, p.format);
    var stored := DamState(AddMedia(s.store, media), s.nextId + 1);
    assert FileName(file) != file;
    UploadBatchSingle(parse, handlers, [AutoLinker], file, s);
    UploadOneSteps(parse, handlers, [AutoLinker], file, s);
    PublishToReactor(MediaUploaded(file, p.ean, p.sku), stored);
  }

  /**
   * Uploading the same plain name twice in one batch replaces the media
   * with the second one and leaves two links, one to each media, so the
   * first link names a media that is no longer stored.
   */
  lemma ReuploadReplacesAndLinksAgain(parse: UploadParser, handlers: seq<Handler>, file: string, s: DamState)
    requires parse(file).Some? && '/' !in file
    ensures var r := UploadBatch(parse, handlers, [AutoLinker], [file, file], s);
            var p := parse(file).value;
            && r.outcome.Pass?
            && r.state.store.byFile == s.store.byFile[file := Media(s.nextId + 2, file, p.ean, p.sku, p.format)]
            && r.state.store.links == s.store.links + [MediaLink(s.nextId + 1, p.ean, p.sku, s.nextId),
                                                       MediaLink(s.nextId + 3, p.ean, p.sku, s.nextId + 2)]
  {
    var first := UploadBatch(parse, handlers, [AutoLinker], [file], s);
    PlainNameIsLinked(parse, handlers, file, s);
    PlainNameIsLinked(parse, handlers, file, first.state);
    UploadBatchAppend(parse, handlers, [AutoLinker], [file], [file], s);
    assert [file] + [file] == [file, file];
  }

  /** The links made from `targets`, numbered from `id`. */
  function LinksFrom(id: Id, targets: seq<(string, string, Id)>): (r: seq<MediaLink>)
    ensures |r| == |targets|
    decreases |targets|
  {
    if |targets| == 0 then []
    else [MediaLink(id, targets[0].0, targets[0].1, targets[0].2)] + LinksFrom(id + 1, targets[1..])
  }

  /** The link target of one batch entry: its codes and the media its last path component names, if both exist. */
  function OneTarget(codes: CodeParser, byFile: map<string, Media>, file: string): (r: seq<(string, string, Id)>)
    ensures |r| <= 1
  {
    var name := FileName(file);
    match codes(name)
    case Some(c) => if name in byFile then [(c.ean, c.sku, byFile[name].id)] else []
    case None => []
  }

  /** One entry of the batch auto-link: the last path component is matched and, when it names a stored media, linked. */
  function AutoLinkOne(codes: CodeParser, file: string, s: DamState): (r: DamState)
    ensures r.store.byFile == s.store.byFile
    ensures |s.store.links| <= |r.store.links| && r.store.links[..|s.store.links|] == s.store.links
    ensures r.nextId - s.nextId == |r.store.links| - |s.store.links| <= 1
  {
    var name := FileName(file);
    match codes(name)
    case None => s
    case Some(c) => Link(s, c.ean, c.sku, name)
  }

  /** One entry leaves the media alone and appends exactly the links its target calls for. */
  lemma AutoLinkOneAppends(codes: CodeParser, file: string, s: DamState)
    ensures var r := AutoLinkOne(codes, file, s);
            var here := OneTarget(codes, s.store.byFile, file);
            && r.store.byFile == s.store.byFile
            && r.nextId == s.nextId + |here|
            && r.store.links == s.store.links + LinksFrom(s.nextId, here)
  {
    var name := FileName(file);
    var r := AutoLinkOne(codes, file, s);
    var here := OneTarget(codes, s.store.byFile, file);
    FileNameIdempotent(file);
    if codes(name).None? {
      assert r == s && here == [];
      LinksFromEmpty(s.nextId);
    } else if name !in s.store.byFile {
      var c := codes(name).value;
      assert r == Link(s, c.ean, c.sku, name);
      assert GetByFileName(s.store, name).None?;
      assert r == s && here == [];
      LinksFromEmpty(s.nextId);
    } else {
      var c := codes(name).value;
      var t := (c.ean, c.sku, s.store.byFile[name].id);
      assert r == Link(s, c.ean, c.sku, name);
      assert GetByFileName(s.store, name) == Some(s.store.byFile[name]);
      assert here == [t];
      LinksFromSingle(s.nextId, t);
    }
  }

  /** The `x`-th link made from `targets` is the `x`-th target's link, numbered `id + x`. */
  lemma {:induction false} LinksFromAt(id: Id, targets: seq<(string, string, Id)>, x: nat)
    requires x < |targets|
    decreases x
    ensures LinksFrom(id, targets)[x] == MediaLink(id + x, targets[x].0, targets[x].1, targets[x].2)
  {
    if x > 0 {
      LinksFromAt(id + 1, targets[1..], x - 1);
    }
  }

  /** No targets, no links. */
  lemma LinksFromEmpty(id: Id)
    ensures LinksFrom(id, []) == []
  {
  }

  /** One target, one link under `id`. */
  lemma LinksFromSingle(id: Id, t: (string, string, Id))
    ensures LinksFrom(id, [t]) == [MediaLink(id, t.0, t.1, t.2)]
  {
  }

  /** Batch auto-link: each entry in order. */
  function AutoLinkBatch(codes: CodeParser, files: seq<string>, s: DamState): (r: DamState)
    decreases |files|
    ensures r.store.byFile == s.store.byFile
    ensures |s.store.links| <= |r.store.links| && r.store.links[..|s.store.links|] == s.store.links
    ensures r.nextId - s.nextId == |r.store.links| - |s.store.links| <= |files|
  {
    if |files| == 0 then s
    else AutoLinkBatch(codes, files[1..], AutoLinkOne(codes, files[0], s))
  }


  /** The first name of the batch the upload parser rejects, if any. */
  ghost predicate FirstBadAt(parse: UploadParser, files: seq<string>, x: int) {
    0 <= x < |files| && parse(files[x]).None? && forall y :: 0 <= y < x ==> parse(files[y]).Some?
  }

  /** A batch completes exactly when the parser accepts every name. */
  lemma {:induction false} UploadBatchPassesIffAllGood(parse: UploadParser, handlers: seq<Handler>, subs: seq<Subscriber>,
                                                       files: seq<string>, s: DamState)
    decreases |files|
    ensures UploadBatch(parse, handlers, subs, files, s).outcome.Pass? <==> forall y :: 0 <= y < |files| ==> parse(files[y]).Some?
  {
    if |files| > 0 {
      var first := UploadOne(parse, handlers, subs, files[0], s);
      if first.outcome.Pass? {
        UploadBatchPassesIffAllGood(parse, handlers, subs, files[1..], first.state);
        assert forall y :: 0 <= y < |files| - 1 ==> files[1..][y] == files[y + 1];
        if forall y :: 0 <= y < |files| - 1 ==> parse(files[1..][y]).Some? {
          forall y | 0 <= y < |files| ensures parse(files[y]).Some? {
            if y > 0 { assert files[y] == files[1..][y - 1]; }
          }
        }
      }
    }
  }

  /**
   * A batch whose first bad name is at `x` has uploaded exactly the names
   * before it, then throws for it before storing anything of it; later
   * names are not touched.
   */
  lemma {:induction false} UploadBatchStopsAtFirstBadName(parse: UploadParser, handlers: seq<Handler>, subs: seq<Subscriber>,
                                                          files: seq<string>, s: DamState, x: nat)
    requires FirstBadAt(parse, files, x)
    decreases |files|
    ensures var before := UploadBatch(parse, handlers, subs, files[..x], s);
            && before.outcome.Pass?
            && UploadBatch(parse, handlers, subs, files, s) == UploadResult(before.state, before.log, Fail(BadFileName(files[x])))
  {
    if x == 0 {
      assert files[..0] == [];
    } else {
      var first := UploadOne(parse, handlers, subs, files[0], s);
      assert parse(files[0]).Some?;
      assert FirstBadAt(parse, files[1..], x - 1) by {
        forall y | 0 <= y < x - 1 ensures parse(files[1..][y]).Some? {
          assert files[1..][y] == files[y + 1];
        }
      }
      UploadBatchStopsAtFirstBadName(parse, handlers, subs, files[1..], first.state, x - 1);
      assert files[..x][0] == files[0];
      assert files[..x][1..] == files[1..][..x - 1];
    }
  }

  /**
   * The links a batch auto-link should add, computed without threading
   * state: one (ean, sku, media id) per name whose last path component
   * matches the code pattern and names a stored media.
   */
  ghost function LinkTargets(codes: CodeParser, byFile: map<string, Media>, files: seq<string>): seq<(string, string, Id)>
    decreases |files|
  {
    if |files| == 0 then [] else OneTarget(codes, byFile, files[0]) + LinkTargets(codes, byFile, files[1..])
  }

  /**
   * Batch auto-link leaves the media alone and appends, in order and with
   * fresh identifiers, exactly one link per target; names that do not match
   * or are not found are skipped silently.
   */
  lemma {:induction false} AutoLinkBatchAppendsTargets(codes: CodeParser, files: seq<string>, s: DamState)
    decreases |files|
    ensures var r := AutoLinkBatch(codes, files, s);
            var targets := LinkTargets(codes, s.store.byFile, files);
            && r.store.byFile == s.store.byFile
            && r.nextId == s.nextId + |targets|
            && r.store.links == s.store.links + LinksFrom(s.nextId, targets)
  {
    if |files| > 0 {
      var byFile := s.store.byFile;
      var s1 := AutoLinkOne(codes, files[0], s);
      AutoLinkOneAppends(codes, files[0], s);
      var r := AutoLinkBatch(codes, files[1..], s1);
      var here := OneTarget(codes, byFile, files[0]);
      var rest := LinkTargets(codes, byFile, files[1..]);
      assert AutoLinkBatch(codes, files, s) == r;
      assert LinkTargets(codes, byFile, files) == here + rest;
      AutoLinkBatchAppendsTargets(codes, files[1..], s1);
      LinksThenLinks(s.store.links, s1.store.links, r.store.links, s.nextId, here, rest);
    }
  }

  /** Links numbered from `id` for `here`, then from where they stop for `rest`, are the links for `here + rest`. */
  lemma LinksThenLinks(base: seq<MediaLink>, mid: seq<MediaLink>, last: seq<MediaLink>, id: Id,
                       here: seq<(string, string, Id)>, rest: seq<(string, string, Id)>)
    requires mid == base + LinksFrom(id, here)
    requires last == mid + LinksFrom(id + |here|, rest)
    ensures last == base + LinksFrom(id, here + rest)
  {
    LinksFromAppend(id, here, rest);
    AppendAssociates(base, LinksFrom(id, here), LinksFrom(id + |here|, rest));
  }

  lemma AppendAssociates<T>(a: seq<T>, b: seq<T>, c: seq<T>)
    ensures a + b + c == a + (b + c)
  {
  }

  /** Numbering a concatenation continues where the first part stops. */
  lemma {:induction false} LinksFromAppend(id: Id, a: seq<(string, string, Id)>, b: seq<(string, string, Id)>)
    decreases |a|
    ensures LinksFrom(id, a + b) == LinksFrom(id, a) + LinksFrom(id + |a|, b)
  {
    if |a| == 0 {
      assert a + b == b;
    } else {
      assert (a + b)[1..] == a[1..] + b;
      LinksFromAppend(id + 1, a[1..], b);
    }
  }
}

=== FILE: event_bus.dfy ===
/**
 * The in-memory fan-out bus. Publishing hands one event to every subscriber
 * of the fixed list given at construction and completes once all of them
 * have finished, faulting when any of them faulted. The subscribers' tasks
 * are modelled as running one after the other in list order; a faulting
 * subscriber does not stop the others, and effects already made stay.
 */
module EventBus {

  /** What one subscriber's handling leaves behind: the new state, and whether it completed without fault. */
  datatype Reaction<S> = Reaction(state: S, ok: bool)

  /** The result of one publish: final state, the deliveries made in order, and whether the publish faults. */
  datatype Dispatch<S, Sub, E> = Dispatch(state: S, calls: seq<(Sub, E)>, faulted: bool)

  function Publish<S, Sub, E>(subs: seq<Sub>, handle: (Sub, E, S) -> Reaction<S>, e: E, s: S): (r: Dispatch<S, Sub, E>)
    decreases |subs|
    ensures |r.calls| == |subs|
    ensures r.faulted ==> |subs| > 0
  {
    if |subs| == 0 then Dispatch(s, [], false)
    else
      var first := handle(subs[0], e, s);
      var rest := Publish(subs[1..], handle, e, first.state);
      Dispatch(rest.state, [(subs[0], e)] + rest.calls, !first.ok || rest.faulted)
  }

  /** Every subscriber is handed the event exactly once, in list order. */
  lemma {:induction false} PublishCallsEachInOrder<S, Sub, E>(subs: seq<Sub>, handle: (Sub, E, S) -> Reaction<S>, e: E, s: S)
    decreases |subs|
    ensures forall x :: 0 <= x < |subs| ==> Publish(subs, handle, e, s).calls[x] == (subs[x], e)
  {
    if |subs| > 0 {
      var first := handle(subs[0], e, s);
      PublishCallsEachInOrder(subs[1..], handle, e, first.state);
      var rest := Publish(subs[1..], handle, e, first.state);
      forall x | 0 <= x < |subs| ensures Publish(subs, handle, e, s).calls[x] == (subs[x], e) {
        if x > 0 {
          assert Publish(subs, handle, e, s).calls[x] == rest.calls[x - 1];
          assert subs[1..][x - 1] == subs[x];
        }
      }
    }
  }

  /** The state the `x`-th subscriber sees: the effect of all earlier subscribers. */
  function StateBefore<S, Sub, E>(subs: seq<Sub>, handle: (Sub, E, S) -> Reaction<S>, e: E, s: S, x: nat): S
    requires x <= |subs|
  {
    Publish(subs[..x], handle, e, s).state
  }

  /** With no subscribers a publish changes nothing and does not fault. */
  lemma PublishToNobody<S, Sub, E>(handle: (Sub, E, S) -> Reaction<S>, e: E, s: S)
    ensures Publish([], handle, e, s) == Dispatch(s, [], false)
  {
  }

  /** Publishing to one subscriber is one call of its handler on the current state. */
  lemma PublishOne<S, Sub, E>(sub: Sub, handle: (Sub, E, S) -> Reaction<S>, e: E, s: S)
    ensures var first := handle(sub, e, s);
            Publish([sub], handle, e, s) == Dispatch(first.state, [(sub, e)], !first.ok)
  {
    assert [sub][1..] == [];
  }

  /** A publish to a non-empty list is its first subscriber's call followed by the publish to the rest. */
  lemma PublishUnfold<S, Sub, E>(subs: seq<Sub>, handle: (Sub, E, S) -> Reaction<S>, e: E, s: S)
    requires |subs| > 0
    ensures var first := handle(subs[0], e, s);
            var rest := Publish(subs[1..], handle, e, first.state);
            Publish(subs, handle, e, s) == Dispatch(rest.state, [(subs[0], e)] + rest.calls, !first.ok || rest.faulted)
  {
  }

  /** The publish-to-concatenation law for `a + b`, given it for `a[1..] + b`. */
  ghost predicate AppendLaw<S, Sub, E>(a: seq<Sub>, b: seq<Sub>, handle: (Sub, E, S) -> Reaction<S>, e: E, s: S) {
    var ra := Publish(a, handle, e, s);
    var rb := Publish(b, handle, e, ra.state);
    Publish(a + b, handle, e, s) == Dispatch(rb.state, ra.calls + rb.calls, ra.faulted || rb.faulted)
  }

  /** One step of the induction behind `PublishAppend`: the first subscriber of `a` runs first. */
  lemma AppendLawStep<S, Sub, E>(a: seq<Sub>, b: seq<Sub>, handle: (Sub, E, S) -> Reaction<S>, e: E, s: S)
    requires |a| > 0
    requires AppendLaw(a[1..], b, handle, e, handle(a[0], e, s).state)
    ensures AppendLaw(a, b, handle, e, s)
  {
    var first := handle(a[0], e, s);
    var ra' := Publish(a[1..], handle, e, first.state);
    var rb := Publish(b, handle, e, ra'.state);
    var tail := Publish(a[1..] + b, handle, e, first.state);
    assert (a + b)[1..] == a[1..] + b;
    PublishUnfold(a, handle, e, s);
    PublishUnfold(a + b, handle, e, s);
    var head := [(a[0], e)];
    assert tail.calls == ra'.calls + rb.calls;
    assert head + (ra'.calls + rb.calls) == (head + ra'.calls) + rb.calls;
  }

  /** Publishing to `a + b` is publishing to `a`, then to `b` from where `a` left off. */
  lemma {:induction false} PublishAppend<S, Sub, E>(a: seq<Sub>, b: seq<Sub>, handle: (Sub, E, S) -> Reaction<S>, e: E, s: S)
    decreases |a|
    ensures var ra := Publish(a, handle, e, s);
            var rb := Publish(b, handle, e, ra.state);
            Publish(a + b, handle, e, s) == Dispatch(rb.state, ra.calls + rb.calls, ra.faulted || rb.faulted)
  {
    if |a| == 0 {
      assert a + b == b;
    } else {
      PublishAppend(a[1..], b, handle, e, handle(a[0], e, s).state);
      AppendLawStep(a, b, handle, e, s);
    }
  }

  /** A publish faults exactly when some subscriber faults on the state it is handed. */
  lemma {:induction false} FaultsIffSomeSubscriberFaults<S, Sub, E>(subs: seq<Sub>, handle: (Sub, E, S) -> Reaction<S>, e: E, s: S)
    decreases |subs|
    ensures Publish(subs, handle, e, s).faulted <==>
            exists x :: 0 <= x < |subs| && !handle(subs[x], e, StateBefore(subs, handle, e, s, x)).ok
  {
    if |subs| > 0 {
      var s1 := handle(subs[0], e, s).state;
      FaultsIffSomeSubscriberFaults(subs[1..], handle, e, s1);
      forall x | 0 <= x < |subs| - 1
        ensures StateBefore(subs[1..], handle, e, s1, x) == StateBefore(subs, handle, e, s, x + 1)
      {
        assert subs[..x + 1][1..] == subs[1..][..x];
      }
      assert StateBefore(subs, handle, e, s, 0) == s;
      if exists x :: 0 <= x < |subs| && !handle(subs[x], e, StateBefore(subs, handle, e, s, x)).ok {
        var x :| 0 <= x < |subs| && !handle(subs[x], e, StateBefore(subs, handle, e, s, x)).ok;
        if x > 0 {
          assert subs[1..][x - 1] == subs[x];
        }
      }
      if exists x :: 0 <= x < |subs| - 1 && !handle(subs[1..][x], e, StateBefore(subs[1..], handle, e, s1, x)).ok {
        var x :| 0 <= x < |subs| - 1 && !handle(subs[1..][x], e, StateBefore(subs[1..], handle, e, s1, x)).ok;
        assert subs[1..][x] == subs[x + 1];
      }
    }
  }

  /** Subscribers that ignore an event leave the state as it was and let the publish complete. */
  lemma {:induction false} PublishToInertSubscribers<S, Sub, E>(subs: seq<Sub>, handle: (Sub, E, S) -> Reaction<S>, e: E, s: S)
    requires forall x :: 0 <= x < |subs| ==> handle(subs[x], e, s) == Reaction(s, true)
    decreases |subs|
    ensures Publish(subs, handle, e, s).state == s
    ensures !Publish(subs, handle, e, s).faulted
  {
    if |subs| > 0 {
      assert handle(subs[0], e, s) == Reaction(s, true);
      forall x | 0 <= x < |subs| - 1 ensures handle(subs[1..][x], e, s) == Reaction(s, true) {
        assert subs[1..][x] == subs[x + 1];
      }
      PublishToInertSubscribers(subs[1..], handle, e, s);
    }
  }
}

=== FILE: events.dfy ===
/** The events exchanged over the bus. */
module Events {

  datatype Event =
    | MediaUploaded(fileName: string, ean: string, sku: string)
    | ProductCreated(ean: string)
}

=== FILE: file_name_examples.dfy ===
/**
 * Worked instances of the upload pattern: the example name the parser's
 * own comment gives, and a name the parser rejects.
 */
module FileNameExamples {
  import opened Results
  import opened Strings
  import opened FileNamePattern

  /** The example name written next to the upload parser. */
  const Example := "EAN12345_SKU56789_front.jpg"

  /** A name with no "EAN" in it. */
  const BadName := "badname.jpg"

  lemma ExampleMatch(n: string)
    requires n == Example
    ensures IsMatch(Upload, n, Split(0, 8, 23, 23))
  {
  }

  lemma ExampleUnderscores(j: nat)
    requires j < |Example| && Example[j] == '_'
    ensures j == 8 || j == 17
  {
  }

  lemma ExampleLetterS(j: nat)
    requires j < |Example| && Lower(Example[j]) == 's'
    ensures j == 9
  {
  }

  lemma ExampleDots(j: nat)
    requires j < |Example| && Example[j] == '.'
    ensures j == 23
  {
  }

  /**
   * The engine's match on the example: "EAN" at 0, the ean group up to the
   * only "_SKU", the sku group up to the last '.', an empty lazy middle.
   */
  lemma ExampleFirst(n: string, s: Split)
    requires n == Example && IsFirst(Upload, n, s)
    ensures s == Split(0, 8, 23, 23)
  {
    var s0 := Split(0, 8, 23, 23);
    ExampleMatch(n);
    assert !Before(s0, s);
    assert LitAt(n, s.j, "_SKU");
    assert Lower(n[s.j + 0]) == Lower("_SKU"[0]);
    ExampleUnderscores(s.j);
    assert Lower(n[s.j + 1]) == Lower("_SKU"[1]);
    ExampleLetterS(s.j + 1);
    ExampleDots(s.m);
  }

  lemma ExampleEan(n: string)
    requires n == Example
    ensures n[3..8] == "12345"
  {
    assert n == "EAN" + "12345" + "_SKU56789_front.jpg";
  }

  lemma ExampleSku(n: string)
    requires n == Example
    ensures n[12..23] == "56789_front"
  {
    assert n == "EAN12345_SKU" + "56789_front" + ".jpg";
  }

  lemma ExampleFormat(n: string)
    requires n == Example
    ensures LowerStr(n[24..]) == "jpg"
  {
    assert n[24..] == "jpg";
    forall x | 0 <= x < 3 ensures LowerStr(n[24..])[x] == "jpg"[x] { }
  }

  /**
   * The example parses to ean "12345", sku "56789_front" and format "jpg":
   * the greedy sku group runs on through "_front" up to the '.'.
   */
  lemma ParseExample(n: string)
    requires n == Example
    ensures Parse(n) == Some(Parsed("12345", "56789_front", "jpg"))
  {
    ExampleIsPlain(n);
    ExampleFound(n);
    ExampleEan(n);
    ExampleSku(n);
    ExampleFormat(n);
  }

  lemma ExampleIsPlain(n: string)
    requires n == Example
    ensures FileName(n) == n
  {
    FileNameOfPlain(n);
    assert '/' !in n by {
      forall x | 0 <= x < |n| ensures n[x] != '/' { }
    }
  }

  lemma ExampleFound(n: string)
    requires n == Example
    ensures FindMatch(Upload, n) == Some(Split(0, 8, 23, 23))
  {
    ExampleMatch(n);
    ExampleFirst(n, FindMatch(Upload, n).value);
  }

  lemma BadNameLetterE(j: nat)
    requires j < |BadName| && Lower(BadName[j]) == 'e'
    ensures j == 6
  {
  }

  /** A name without "EAN" is the "Bad filename" case. */
  lemma ParseRejectsBadName(n: string)
    requires n == BadName
    ensures Parse(n).None?
  {
    FileNameOfPlain(n);
    assert '/' !in n by {
      forall x | 0 <= x < |n| ensures n[x] != '/' { }
    }
    forall s | IsMatch(Upload, n, s) ensures false {
      assert Lower(n[s.i + 0]) == Lower("EAN"[0]);
      BadNameLetterE(s.i);
    }
  }
}

=== FILE: file_names.dfy ===
/**
 * The file-name patterns of the media use cases, read with the
 * leftmost-first backtracking semantics of a .NET regular expression
 * matched case-insensitively:
 *
 *   Upload: EAN(?<ean>\w+)_SKU(?<sku>\w+).*?\.(?<ext>\w+)$
 *   Codes:  EAN(?<ean>\w+)_SKU(?<sku>\w+)
 *
 * A candidate match is described by four positions in the name:
 *
 *   n == pre ++ "EAN" ++ ean ++ "_SKU" ++ sku ++ mid ++ "." ++ ext
 *        i^            j^                 k^      m^
 *
 * The engine tries start positions left to right; at one start it prefers
 * the longest `ean` (greedy), then the longest `sku` (greedy), then the
 * shortest `mid` (lazy). The chosen match is therefore the least candidate
 * in the lexicographic order (i ascending, j descending, k descending,
 * m ascending), which `Before` captures.
 */
module FileNamePattern {
  import opened Results
  import opened Strings

  datatype Pattern = Upload | Codes

  /** Positions of a candidate match: start of "EAN", start of "_SKU", end of the sku group, the final '.'. */
  datatype Split = Split(i: nat, j: nat, k: nat, m: nat)

  /** `lit` occurs at `pos` in `n`, ignoring ASCII case. */
  predicate LitAt(n: string, pos: nat, lit: string) {
    pos + |lit| <= |n| && forall t :: 0 <= t < |lit| ==> Lower(n[pos + t]) == Lower(lit[t])
  }

  /** Every character of `n[a..b]` is a word character. */
  predicate WordSpan(n: string, a: nat, b: nat) {
    a <= b <= |n| && forall p :: a <= p < b ==> IsWord(n[p])
  }

  /** `n[a..b]` holds no line feed, so `.` can consume it. */
  predicate NoNewline(n: string, a: nat, b: nat)
    requires a <= b <= |n|
  {
    forall p :: a <= p < b ==> n[p] != '\n'
  }

  /** `s` describes a way for `pat` to match `n` (captures non-empty, literals case-insensitive). */
  predicate IsMatch(pat: Pattern, n: string, s: Split) {
    && LitAt(n, s.i, "EAN")
    && s.i + 3 < s.j && WordSpan(n, s.i + 3, s.j)
    && LitAt(n, s.j, "_SKU")
    && s.j + 4 < s.k && WordSpan(n, s.j + 4, s.k)
    && match pat
       case Codes => s.m == s.k
       case Upload =>
         && s.k <= s.m && s.m + 1 < |n|
         && n[s.m] == '.'
         && NoNewline(n, s.k, s.m)
         && WordSpan(n, s.m + 1, |n|)
  }

  /** Some candidate match exists: the regular expression succeeds on `n`. */
  ghost predicate Matches(pat: Pattern, n: string) {
    exists s :: IsMatch(pat, n, s)
  }

  /** `a` is tried before `b` by the backtracking engine. */
  predicate Before(a: Split, b: Split) {
    || a.i < b.i
    || (a.i == b.i && a.j > b.j)
    || (a.i == b.i && a.j == b.j && a.k > b.k)
    || (a.i == b.i && a.j == b.j && a.k == b.k && a.m < b.m)
  }

  /** `s` is the match the engine reports: no other match is tried before it. */
  ghost predicate IsFirst(pat: Pattern, n: string, s: Split) {
    IsMatch(pat, n, s) && forall t :: IsMatch(pat, n, t) ==> !Before(t, s)
  }

  lemma MatchBounds(pat: Pattern, n: string, s: Split)
    requires IsMatch(pat, n, s)
    ensures s.i + 3 < s.j && s.j + 4 < s.k <= s.m && s.k <= |n| && s.m <= |n|
  {
  }

  // The backtracking search, one function per choice point.

  /** Lazy `.*?`: the shortest `mid` from `m` on. */
  function SearchM(pat: Pattern, n: string, i: nat, j: nat, k: nat, m: nat): (r: Option<Split>)
    decreases |n| + 1 - m
    ensures r.Some? ==> IsMatch(pat, n, r.value) && r.value.i == i && r.value.j == j && r.value.k == k && m <= r.value.m
    ensures forall t :: IsMatch(pat, n, t) && t.i == i && t.j == j && t.k == k && m <= t.m ==>
                          r.Some? && r.value.m <= t.m
  {
    if m > |n| then None
    else if IsMatch(pat, n, Split(i, j, k, m)) then Some(Split(i, j, k, m))
    else SearchM(pat, n, i, j, k, m + 1)
  }

  /** Greedy sku group: the longest sku ending at or before `k`. */
  function SearchK(pat: Pattern, n: string, i: nat, j: nat, k: nat): (r: Option<Split>)
    decreases k
    ensures r.Some? ==> IsMatch(pat, n, r.value) && r.value.i == i && r.value.j == j && r.value.k <= k
    ensures forall t :: IsMatch(pat, n, t) && t.i == i && t.j == j && t.k <= k ==>
                          r.Some? && (t.k < r.value.k || (t.k == r.value.k && r.value.m <= t.m))
  {
    var here := SearchM(pat, n, i, j, k, k);
    if here.Some? then here
    else if k == 0 then None
    else SearchK(pat, n, i, j, k - 1)
  }

  /** Greedy ean group: the longest ean ending at or before `j`. */
  function SearchJ(pat: Pattern, n: string, i: nat, j: nat): (r: Option<Split>)
    decreases j
    ensures r.Some? ==> IsMatch(pat, n, r.value) && r.value.i == i && r.value.j <= j
    ensures forall t :: IsMatch(pat, n, t) && t.i == i && t.j <= j ==>
                          r.Some? && (t.j < r.value.j || (t.j == r.value.j && !Before(t, r.value)))
  {
    var here := SearchK(pat, n, i, j, |n|);
    if here.Some? then here
    else if j == 0 then None
    else SearchJ(pat, n, i, j - 1)
  }

  /** Start positions, left to right. */
  function SearchI(pat: Pattern, n: string, i: nat): (r: Option<Split>)
    decreases |n| + 1 - i
    ensures r.Some? ==> IsMatch(pat, n, r.value) && i <= r.value.i
    ensures forall t :: IsMatch(pat, n, t) && i <= t.i ==> r.Some? && !Before(t, r.value)
  {
    if i > |n| then None
    else
      var here := SearchJ(pat, n, i, |n|);
      if here.Some? then here
      else SearchI(pat, n, i + 1)
  }

  /** The match `Regex.Match` reports, if any. */
  function FindMatch(pat: Pattern, n: string): (r: Option<Split>)
    ensures r.None? <==> !Matches(pat, n)
    ensures r.Some? ==> IsFirst(pat, n, r.value)
  {
    SearchI(pat, n, 0)
  }

  /** Two candidates are equal or one is tried before the other. */
  lemma BeforeTotal(a: Split, b: Split)
    ensures a == b || Before(a, b) || Before(b, a)
  {
  }

  /** The reported match is unique. */
  lemma FirstUnique(pat: Pattern, n: string, s: Split, t: Split)
    requires IsFirst(pat, n, s) && IsFirst(pat, n, t)
    ensures s == t
  {
    BeforeTotal(s, t);
  }

  /** Greedy sku: the reported sku extends to the end of its word run. */
  lemma {:induction false} FirstSkuIsWholeWordRun(pat: Pattern, n: string, s: Split)
    requires IsFirst(pat, n, s)
    ensures s.k == |n| || !IsWord(n[s.k])
  {
    if s.k < |n| && IsWord(n[s.k]) {
      var t := Split(s.i, s.j, s.k + 1, if pat.Codes? then s.k + 1 else s.m);
      if pat.Upload? {
        assert n[s.m] == '.';
        assert s.k < s.m;
      }
      assert IsMatch(pat, n, t);
      assert Before(t, s);
      assert false;
    }
  }

  /** Greedy ean: no later "_SKU" inside the word run can end the ean group. */
  lemma {:induction false} FirstEanIsLongest(pat: Pattern, n: string, s: Split)
    requires IsFirst(pat, n, s)
    ensures forall j' :: s.j < j' && j' + 4 < s.k ==> !LitAt(n, j', "_SKU")
  {
    forall j' | s.j < j' && j' + 4 < s.k && LitAt(n, j', "_SKU")
      ensures false
    {
      var t := Split(s.i, j', s.k, s.m);
      forall p | s.i + 3 <= p < j'
        ensures IsWord(n[p])
      {
        if s.j <= p < s.j + 4 {
          assert Lower(n[s.j + (p - s.j)]) == Lower("_SKU"[p - s.j]);
        }
      }
      assert IsMatch(pat, n, t);
      assert Before(t, s);
    }
  }

  /**
   * The decomposition a candidate match stands for, with the same
   * conditions on its parts that `DecompositionMatches` asks for.
   */
  lemma MatchIsDecomposition(n: string, s: Split)
    requires IsMatch(Upload, n, s)
    ensures s.i + 3 < s.j && s.j + 4 < s.k <= s.m && s.m + 1 < |n|
    ensures n == n[..s.i] + n[s.i..s.i + 3] + n[s.i + 3..s.j] + n[s.j..s.j + 4] + n[s.j + 4..s.k]
                 + n[s.k..s.m] + "." + n[s.m + 1..]
    ensures EqualsIgnoreCase(n[s.i..s.i + 3], "EAN") && EqualsIgnoreCase(n[s.j..s.j + 4], "_SKU")
    ensures WordSpan(n, s.i + 3, s.j) && WordSpan(n, s.j + 4, s.k) && WordSpan(n, s.m + 1, |n|)
    ensures NoNewline(n, s.k, s.m)
  {
    assert n[s.m..s.m + 1] == ".";
    assert n == n[..s.i] + n[s.i..s.i + 3] + n[s.i + 3..s.j] + n[s.j..s.j + 4] + n[s.j + 4..s.k]
                + n[s.k..s.m] + n[s.m..s.m + 1] + n[s.m + 1..];
  }

  /** Conversely, every such decomposition of `n` is a candidate match. */
  lemma {:induction false} DecompositionMatches(n: string, pre: string, e: string, ean: string, u: string,
                                                sku: string, mid: string, ext: string)
    requires n == pre + e + ean + u + sku + mid + "." + ext
    requires EqualsIgnoreCase(e, "EAN") && EqualsIgnoreCase(u, "_SKU")
    requires |ean| > 0 && |sku| > 0 && |ext| > 0
    requires forall x :: 0 <= x < |ean| ==> IsWord(ean[x])
    requires forall x :: 0 <= x < |sku| ==> IsWord(sku[x])
    requires forall x :: 0 <= x < |ext| ==> IsWord(ext[x])
    requires forall x :: 0 <= x < |mid| ==> mid[x] != '\n'
    ensures IsMatch(Upload, n, Split(|pre|, |pre| + 3 + |ean|, |pre| + 7 + |ean| + |sku|,
                                     |pre| + 7 + |ean| + |sku| + |mid|))
  {
    var i, j := |pre|, |pre| + 3 + |ean|;
    var k := j + 4 + |sku|;
    var m := k + |mid|;
    assert forall t :: 0 <= t < 3 ==> n[i + t] == e[t];
    assert forall p :: i + 3 <= p < j ==> n[p] == ean[p - (i + 3)];
    assert forall t :: 0 <= t < 4 ==> n[j + t] == u[t];
    assert forall p :: j + 4 <= p < k ==> n[p] == sku[p - (j + 4)];
    assert forall p :: k <= p < m ==> n[p] == mid[p - k];
    assert n[m] == '.';
    assert |n| == m + 1 + |ext|;
    assert forall p :: m + 1 <= p < |n| ==> n[p] == ext[p - (m + 1)];
  }

  /** The three captures of the upload pattern; the extension is lower-cased. */
  datatype Parsed = Parsed(ean: string, sku: string, format: string)

  /** The two captures of the code pattern. */
  datatype CodePair = CodePair(ean: string, sku: string)

  function UploadCaptures(n: string, s: Split): Parsed
    requires IsMatch(Upload, n, s)
  {
    Parsed(n[s.i + 3..s.j], n[s.j + 4..s.k], LowerStr(n[s.m + 1..]))
  }

  function CodeCaptures(n: string, s: Split): CodePair
    requires IsMatch(Codes, n, s)
  {
    CodePair(n[s.i + 3..s.j], n[s.j + 4..s.k])
  }

  /**
   * The private parser of the upload use case: the file name of `file` is
   * matched against the upload pattern; `None` is the "Bad filename" throw.
   */
  function Parse(file: string): (r: Option<Parsed>)
    ensures r.None? <==> !Matches(Upload, FileName(file))
    ensures r.Some? ==> exists s :: IsFirst(Upload, FileName(file), s) && r.value == UploadCaptures(FileName(file), s)
  {
    var name := FileName(file);
    match FindMatch(Upload, name)
    case None => None
    case Some(s) => Some(UploadCaptures(name, s))
  }

  /** The code pattern of the batch auto-link use case, matched on `name` as given. */
  function ParseCodes(name: string): (r: Option<CodePair>)
    ensures r.None? <==> !Matches(Codes, name)
    ensures r.Some? ==> exists s :: IsFirst(Codes, name, s) && r.value == CodeCaptures(name, s)
  {
    match FindMatch(Codes, name)
    case None => None
    case Some(s) => Some(CodeCaptures(name, s))
  }
}

=== FILE: pim_domain.dfy ===
/**
 * The product catalog's domain: typologies (category schemas), their form
 * fields, and products whose attribute map is validated against a typology.
 */
module PimDomain {
  import opened Results

  datatype FieldKind = Text | Number | Boolean | Date

  datatype FormField = FormField(name: string, kind: FieldKind, required: bool)

  /** A category code, its display name and its ordered schema. */
  datatype Typology = Typology(code: string, name: string, fields: seq<FormField>)

  /**
   * A dynamically typed attribute value. `Null` is the null reference;
   * `Num` is a built-in numeric value, one that implements the runtime's
   * convertible-value interface, its magnitude kept opaquely; `Stamp` is a
   * date-time value, the only kind the `Date` field accepts; `Other` is any
   * other object, which may or may not implement that interface (a
   * character or an enum member does, a big integer or a parsed JSON
   * element does not).
   */
  datatype Value =
    | Null
    | Str(s: string)
    | Num(x: real)
    | Bool(b: bool)
    | Stamp(ticks: int)
    | Other(convertible: bool)

  type Attrs = map<string, Value>

  datatype ValidationError = MissingRequiredField(field: string) | InvalidFieldType(field: string)

  datatype Product = Product(ean: string, name: string, typologyCode: string, attributes: Attrs)

  /** A freshly constructed product: the given identity and no attributes yet. */
  function NewProduct(ean: string, name: string, typologyCode: string): (p: Product)
    ensures p.ean == ean && p.name == name && p.typologyCode == typologyCode
    ensures |p.attributes| == 0
  {
    Product(ean, name, typologyCode, map[])
  }

  /**
   * The runtime type test of one field kind. Strings, booleans and
   * timestamps are convertible values too, so a Number field accepts them.
   */
  predicate Accepts(kind: FieldKind, v: Value) {
    match kind
    case Text => v.Str?
    case Number => !v.Null? && !(v.Other? && !v.convertible)
    case Boolean => v.Bool?
    case Date => v.Stamp?
  }

  /**
   * The kinds overlap only through Number: a value of the Text, Boolean or
   * Date kind is also a Number, no value has two of those three kinds, and
   * null has no kind at all.
   */
  lemma KindsOverlapOnlyInNumber(v: Value)
    ensures Accepts(Text, v) || Accepts(Boolean, v) || Accepts(Date, v) ==> Accepts(Number, v)
    ensures !(Accepts(Text, v) && Accepts(Boolean, v))
    ensures !(Accepts(Text, v) && Accepts(Date, v))
    ensures !(Accepts(Boolean, v) && Accepts(Date, v))
    ensures v.Null? ==> forall k: FieldKind :: !Accepts(k, v)
  {
  }

  /** `input` has a non-null value under `key`. */
  predicate Given(input: Attrs, key: string) {
    key in input && !input[key].Null?
  }

  /** One field's rule: a required field is given, and a given value has the field's kind. */
  predicate FieldOk(f: FormField, input: Attrs) {
    && (f.required ==> Given(input, f.name))
    && (Given(input, f.name) ==> Accepts(f.kind, input[f.name]))
  }

  /** Every field of the schema accepts `input`. */
  predicate Conforms(fields: seq<FormField>, input: Attrs) {
    forall x :: 0 <= x < |fields| ==> FieldOk(fields[x], input)
  }

  /** The error a field that does not accept `input` reports. */
  function ErrorOf(f: FormField, input: Attrs): ValidationError {
    if f.required && !Given(input, f.name) then MissingRequiredField(f.name) else InvalidFieldType(f.name)
  }

  /** `fields[x]` is the first field that rejects `input`. */
  predicate FirstRejectAt(fields: seq<FormField>, input: Attrs, x: int) {
    0 <= x < |fields| && !FieldOk(fields[x], input) && Conforms(fields[..x], input)
  }

  function Names(fields: seq<FormField>): set<string> {
    set f | f in fields :: f.name
  }

  /**
   * `after` is `before` with the given input value of every field in
   * `fields` written over it, and nothing else changed.
   */
  ghost predicate Overlaid(before: Attrs, after: Attrs, input: Attrs, fields: seq<FormField>) {
    && (forall k :: k in after <==> k in before || (k in Names(fields) && Given(input, k)))
    && (forall k :: k in after ==>
          after[k] == if k in Names(fields) && Given(input, k) then input[k] else before[k])
  }

  lemma OverlaidEmpty(attrs: Attrs, input: Attrs)
    ensures Overlaid(attrs, attrs, input, [])
  {
  }

  lemma {:induction false} OverlaidStep(a0: Attrs, a1: Attrs, a2: Attrs, input: Attrs, f: FormField, rest: seq<FormField>)
    requires Overlaid(a0, a1, input, [f])
    requires Overlaid(a1, a2, input, rest)
    ensures Overlaid(a0, a2, input, [f] + rest)
  {
    assert Names([f] + rest) == Names([f]) + Names(rest) by {
      forall k | k in Names([f] + rest) ensures k in Names([f]) + Names(rest) {
        var g :| g in [f] + rest && g.name == k;
        if g == f { assert g in [f]; } else { assert g in rest; }
      }
      forall k | k in Names([f]) + Names(rest) ensures k in Names([f] + rest) {
        if k in Names([f]) {
          var g :| g in [f] && g.name == k;
          assert g in [f] + rest;
        } else {
          var g :| g in rest && g.name == k;
          assert g in [f] + rest;
        }
      }
    }
  }

  /**
   * The schema walk: checks each field in order and writes its value when
   * given, stopping at the first field that throws. Writes made before the
   * throw stay in the returned map.
   */
  function Walk(fields: seq<FormField>, input: Attrs, attrs: Attrs): (r: (Attrs, Outcome<ValidationError>))
    decreases |fields|
    ensures r.1.Pass? <==> Conforms(fields, input)
    ensures r.1.Pass? ==> Overlaid(attrs, r.0, input, fields)
    ensures r.1.Fail? ==> exists x :: FirstRejectAt(fields, input, x) && r.1.error == ErrorOf(fields[x], input)
                                      && Overlaid(attrs, r.0, input, fields[..x])
  {
    if |fields| == 0 then (attrs, Pass)
    else
      var f := fields[0];
      if f.required && (f.name !in input || input[f.name].Null?) then
        (attrs, Fail(MissingRequiredField(f.name)))
      else if f.name in input && !input[f.name].Null? && !Accepts(f.kind, input[f.name]) then
        (attrs, Fail(InvalidFieldType(f.name)))
      else
        var written := if f.name in input && !input[f.name].Null? then attrs[f.name := input[f.name]] else attrs;
        var rest := Walk(fields[1..], input, written);
        WalkStep(fields, input, attrs, written, rest);
        rest
  }

  lemma {:induction false} WalkStep(fields: seq<FormField>, input: Attrs, attrs: Attrs, written: Attrs,
                                    rest: (Attrs, Outcome<ValidationError>))
    requires |fields| > 0 && FieldOk(fields[0], input)
    requires written == if Given(input, fields[0].name) then attrs[fields[0].name := input[fields[0].name]] else attrs
    requires rest.1.Pass? <==> Conforms(fields[1..], input)
    requires rest.1.Pass? ==> Overlaid(written, rest.0, input, fields[1..])
    requires rest.1.Fail? ==> exists x :: FirstRejectAt(fields[1..], input, x) && rest.1.error == ErrorOf(fields[1..][x], input)
                                         && Overlaid(written, rest.0, input, fields[1..][..x])
    ensures rest.1.Pass? <==> Conforms(fields, input)
    ensures rest.1.Pass? ==> Overlaid(attrs, rest.0, input, fields)
    ensures rest.1.Fail? ==> exists x :: FirstRejectAt(fields, input, x) && rest.1.error == ErrorOf(fields[x], input)
                                         && Overlaid(attrs, rest.0, input, fields[..x])
  {
    var f := fields[0];
    assert fields == [f] + fields[1..];
    assert Names([f]) == {f.name};
    assert Overlaid(attrs, written, input, [f]);
    assert Conforms(fields, input) <==> Conforms(fields[1..], input) by {
      if Conforms(fields[1..], input) {
        forall x | 0 <= x < |fields| ensures FieldOk(fields[x], input) {
          if x > 0 { assert fields[x] == fields[1..][x - 1]; }
        }
      }
    }
    if rest.1.Pass? {
      OverlaidStep(attrs, written, rest.0, input, f, fields[1..]);
    } else {
      var x :| FirstRejectAt(fields[1..], input, x) && rest.1.error == ErrorOf(fields[1..][x], input)
               && Overlaid(written, rest.0, input, fields[1..][..x]);
      assert fields[..x + 1] == [f] + fields[1..][..x];
      OverlaidStep(attrs, written, rest.0, input, f, fields[1..][..x]);
      assert FirstRejectAt(fields, input, x + 1) by {
        var pre := fields[..x + 1];
        forall y | 0 <= y < |pre| ensures FieldOk(pre[y], input) {
          if y > 0 { assert pre[y] == fields[1..][..x][y - 1]; }
        }
      }
    }
  }

  /**
   * `after` is the successful merge of `input` into `before`: the given
   * value of every schema field overwrites, every other input key is added
   * only when absent, and no key is lost.
   */
  ghost predicate Merged(before: Attrs, after: Attrs, input: Attrs, fields: seq<FormField>) {
    && (forall k :: k in after <==> k in before || k in input)
    && (forall k :: k in after ==>
          after[k] == if k in Names(fields) && Given(input, k) then input[k]
                      else if k in before then before[k]
                      else input[k])
  }

  /** Merging into an empty attribute map gives back the input. */
  lemma MergedIntoNothing(after: Attrs, input: Attrs, fields: seq<FormField>)
    requires Merged(map[], after, input, fields)
    ensures after == input
  {
    assert after.Keys == input.Keys;
    forall k | k in after ensures after[k] == input[k] { }
  }

  /** The copy-through loop: every input key not yet present is added with its value. */
  function CopyAbsent(attrs: Attrs, input: Attrs): (r: Attrs)
    ensures r.Keys == attrs.Keys + input.Keys
    ensures forall k :: k in attrs ==> r[k] == attrs[k]
    ensures forall k :: k in input && k !in attrs ==> r[k] == input[k]
  {
    map k | k in attrs.Keys + input.Keys :: if k in attrs then attrs[k] else input[k]
  }

  /**
   * Validates `input` against `typology` and merges it into `attrs`. The
   * outcome is `Fail` where the program throws; the map returned then holds
   * the writes made before the throw.
   */
  function UpdateAttributes(typology: Typology, input: Attrs, attrs: Attrs): (r: (Attrs, Outcome<ValidationError>))
    ensures attrs.Keys <= r.0.Keys
    ensures r.1.Pass? <==> Conforms(typology.fields, input)
    ensures r.1.Pass? ==> Merged(attrs, r.0, input, typology.fields)
    ensures r.1.Fail? ==> exists x :: FirstRejectAt(typology.fields, input, x)
                                      && r.1.error == ErrorOf(typology.fields[x], input)
                                      && Overlaid(attrs, r.0, input, typology.fields[..x])
  {
    var (written, outcome) := Walk(typology.fields, input, attrs);
    if outcome.Fail? then (written, outcome)
    else (CopyAbsent(written, input), Pass)
  }

  /** An input the schema does not accept has a first rejecting field. */
  lemma {:induction false} FirstRejectExists(fields: seq<FormField>, input: Attrs)
    requires !Conforms(fields, input)
    decreases |fields|
    ensures exists x :: FirstRejectAt(fields, input, x)
  {
    var last := |fields| - 1;
    var front := fields[..last];
    if !Conforms(front, input) {
      FirstRejectExists(front, input);
      var x :| FirstRejectAt(front, input, x);
      assert fields[..x] == front[..x];
      assert FirstRejectAt(fields, input, x);
    } else {
      assert fields[..last] == front;
      assert FirstRejectAt(fields, input, last);
    }
  }

  /** At most one field is the first to reject an input. */
  lemma FirstRejectUnique(fields: seq<FormField>, input: Attrs, x: int, y: int)
    requires FirstRejectAt(fields, input, x) && FirstRejectAt(fields, input, y)
    ensures x == y
  {
  }

  /** Whether validation passes, and which error it reports, depends on the schema and the input only. */
  lemma OutcomeIgnoresStoredAttributes(typology: Typology, input: Attrs, a: Attrs, b: Attrs)
    ensures UpdateAttributes(typology, input, a).1 == UpdateAttributes(typology, input, b).1
  {
    var ra := UpdateAttributes(typology, input, a);
    var rb := UpdateAttributes(typology, input, b);
    if ra.1.Fail? && rb.1.Fail? {
      var x :| FirstRejectAt(typology.fields, input, x) && ra.1.error == ErrorOf(typology.fields[x], input);
      var y :| FirstRejectAt(typology.fields, input, y) && rb.1.error == ErrorOf(typology.fields[y], input);
      FirstRejectUnique(typology.fields, input, x, y);
    }
  }

  /** Every non-null stored value under a schema field name has that field's kind. */
  predicate WellTyped(fields: seq<FormField>, attrs: Attrs) {
    forall x :: 0 <= x < |fields| && Given(attrs, fields[x].name) ==> Accepts(fields[x].kind, attrs[fields[x].name])
  }

  /**
   * A successful update of well-typed attributes leaves attributes that
   * satisfy the schema themselves: every required field present and
   * non-null, every non-null field value of the field's kind.
   */
  lemma SuccessConforms(typology: Typology, input: Attrs, attrs: Attrs)
    requires WellTyped(typology.fields, attrs)
    requires UpdateAttributes(typology, input, attrs).1.Pass?
    ensures Conforms(typology.fields, UpdateAttributes(typology, input, attrs).0)
  {
    var r := UpdateAttributes(typology, input, attrs).0;
    forall x | 0 <= x < |typology.fields|
      ensures FieldOk(typology.fields[x], r)
    {
      var f := typology.fields[x];
      assert f.name in Names(typology.fields);
      assert FieldOk(f, input);
    }
  }

  /** Repeating a successful update with the same typology and input changes nothing. */
  lemma UpdateIdempotent(typology: Typology, input: Attrs, attrs: Attrs)
    requires UpdateAttributes(typology, input, attrs).1.Pass?
    ensures var once := UpdateAttributes(typology, input, attrs).0;
            UpdateAttributes(typology, input, once) == (once, Pass)
  {
    var once := UpdateAttributes(typology, input, attrs).0;
    var (written, outcome) := Walk(typology.fields, input, once);
    assert outcome.Pass?;
    assert written == once by {
      assert written.Keys == once.Keys;
      forall k | k in written ensures written[k] == once[k] { }
    }
    assert CopyAbsent(written, input) == once;
  }
}

=== FILE: pim_examples.dfy ===
/**
 * The product-creation scenario of the unit tests: a two-field TEXTILE
 * typology and a T-shirt created against it.
 */
module PimExamples {
  import opened Results
  import opened Events
  import opened PimDomain
  import opened PimRepositories
  import opened PimUseCases

  const TestTextile := Typology("TEXTILE", "Textile", [FormField("size", Text, true), FormField("price", Number, true)])

  const TShirt := CreateCommand("EAN1", "T-Shirt", "TEXTILE", map["size" := Str("M"), "price" := Num(19.99)])

  /** The T-shirt without its price. */
  const Priceless := CreateCommand("EAN1", "T-Shirt", "TEXTILE", map["size" := Str("M")])

  lemma TShirtConforms()
    ensures Conforms(TestTextile.fields, TShirt.attributes)
  {
    assert FieldOk(TestTextile.fields[0], TShirt.attributes);
    assert FieldOk(TestTextile.fields[1], TShirt.attributes);
  }

  /**
   * Creating the T-shirt in an empty catalog stores it with size "M" and
   * publishes one creation event for "EAN1".
   */
  lemma CreateTShirt(typologies: TypologyStore)
    requires typologies == map["TEXTILE" := TestTextile]
    ensures var r := CreateProduct(map[], typologies, TShirt);
            && r.outcome.Pass?
            && r.events == [ProductCreated("EAN1")]
            && "EAN1" in r.products && r.products["EAN1"].attributes["size"] == Str("M")
  {
    TShirtConforms();
    CreatedAttributesAreInput(map[], typologies, TShirt);
  }

  /** Creating it a second time is rejected as a duplicate, and nothing changes. */
  lemma CreateTShirtTwice(typologies: TypologyStore)
    requires typologies == map["TEXTILE" := TestTextile]
    ensures var first := CreateProduct(map[], typologies, TShirt);
            var second := CreateProduct(first.products, typologies, TShirt);
            && second.outcome == Fail(ProductAlreadyExists)
            && second.products == first.products
  {
    CreateTShirt(typologies);
  }

  /** Leaving out the required price is reported against "price", and nothing is stored. */
  lemma CreateWithoutPrice(typologies: TypologyStore)
    requires typologies == map["TEXTILE" := TestTextile]
    ensures var r := CreateProduct(map[], typologies, Priceless);
            && r.outcome == Fail(Invalid(MissingRequiredField("price")))
            && r.products == map[]
  {
    var fields := TestTextile.fields;
    assert FieldOk(fields[0], Priceless.attributes);
    assert !FieldOk(fields[1], Priceless.attributes);
    assert FirstRejectAt(fields, Priceless.attributes, 1) by {
      assert fields[..1] == [fields[0]];
    }
    var x := FirstReject(fields, Priceless.attributes);
    FirstRejectUnique(fields, Priceless.attributes, x, 1);
  }
}

=== FILE: pim_repositories.dfy ===
/** The in-memory product and typology stores. */
module PimRepositories {
  import opened Results
  import opened PimDomain

  /** Products keyed by EAN. */
  type ProductStore = map<string, Product>

  /** Typologies keyed by code; built once and only read afterwards. */
  type TypologyStore = map<string, Typology>

  /** Stores `p` under its EAN, replacing whatever was stored there. */
  function AddProduct(store: ProductStore, p: Product): (r: ProductStore)
    ensures p.ean in r && r[p.ean] == p
    ensures r.Keys == store.Keys + {p.ean}
    ensures forall e :: e in store && e != p.ean ==> r[e] == store[e]
  {
    store[p.ean := p]
  }

  /** The product stored under `ean`, or null. */
  function GetProduct(store: ProductStore, ean: string): (r: Option<Product>)
    ensures r.Some? <==> ean in store
    ensures r.Some? ==> r.value == store[ean]
  {
    if ean in store then Some(store[ean]) else None
  }

  /** An EAN exists exactly when the lookup finds a product under it. */
  function ExistsProduct(store: ProductStore, ean: string): (r: bool)
    ensures r <==> GetProduct(store, ean).Some?
  {
    ean in store
  }

  /** The store reached by adding `ps` in order. */
  function AddAll(store: ProductStore, ps: seq<Product>): ProductStore
    decreases |ps|
  {
    if |ps| == 0 then store else AddAll(AddProduct(store, ps[0]), ps[1..])
  }

  /** After a sequence of adds, an EAN exists exactly when it was already stored or some added product carries it. */
  lemma {:induction false} ExistsIffAdded(store: ProductStore, ps: seq<Product>, ean: string)
    ensures ExistsProduct(AddAll(store, ps), ean) <==> ean in store || exists x :: 0 <= x < |ps| && ps[x].ean == ean
    decreases |ps|
  {
    if |ps| > 0 {
      ExistsIffAdded(AddProduct(store, ps[0]), ps[1..], ean);
      if exists x :: 0 <= x < |ps| && ps[x].ean == ean {
        var x :| 0 <= x < |ps| && ps[x].ean == ean;
        if x > 0 { assert ps[1..][x - 1].ean == ean; }
      }
    }
  }

  /** The product found is the last one added under that EAN. */
  lemma {:induction false} GetFindsLastAdded(store: ProductStore, ps: seq<Product>, x: nat)
    requires x < |ps|
    requires forall y :: x < y < |ps| ==> ps[y].ean != ps[x].ean
    ensures GetProduct(AddAll(store, ps), ps[x].ean) == Some(ps[x])
    decreases |ps|
  {
    if x == 0 {
      AddedKeepsOthers(AddProduct(store, ps[0]), ps[1..], ps[0]);
    } else {
      GetFindsLastAdded(AddProduct(store, ps[0]), ps[1..], x - 1);
    }
  }

  /** Adding products of other EANs keeps a stored product. */
  lemma {:induction false} AddedKeepsOthers(store: ProductStore, ps: seq<Product>, p: Product)
    requires p.ean in store && store[p.ean] == p
    requires forall y :: 0 <= y < |ps| ==> ps[y].ean != p.ean
    ensures p.ean in AddAll(store, ps) && AddAll(store, ps)[p.ean] == p
    decreases |ps|
  {
    if |ps| > 0 {
      AddedKeepsOthers(AddProduct(store, ps[0]), ps[1..], p);
    }
  }

  /** No two seeds share a code. */
  predicate DistinctCodes(seeds: seq<Typology>) {
    forall x, y :: 0 <= x < y < |seeds| ==> seeds[x].code != seeds[y].code
  }

  /** Two seeds carry `code`. */
  ghost predicate Duplicated(seeds: seq<Typology>, code: string) {
    exists x, y :: 0 <= x < y < |seeds| && seeds[x].code == code && seeds[y].code == code
  }

  function TypologyCodes(seeds: seq<Typology>): set<string> {
    set x | 0 <= x < |seeds| :: seeds[x].code
  }

  /** Every typology is stored under its own code. */
  predicate KeyedByCode(store: TypologyStore) {
    forall c :: c in store ==> store[c].code == c
  }

  /**
   * Builds the typology store from its seeds in order, failing with the
   * code of the first seed whose code is already taken (the dictionary
   * build throws on a duplicate key).
   */
  function BuildFrom(acc: TypologyStore, seeds: seq<Typology>): (r: Result<TypologyStore, string>)
    requires KeyedByCode(acc)
    decreases |seeds|
    ensures r.Ok? <==> DistinctCodes(seeds) && TypologyCodes(seeds) !! acc.Keys
    ensures r.Ok? ==> KeyedByCode(r.value)
    ensures r.Ok? ==> r.value.Keys == acc.Keys + TypologyCodes(seeds)
    ensures r.Ok? ==> forall x :: 0 <= x < |seeds| ==> r.value[seeds[x].code] == seeds[x]
    ensures r.Ok? ==> forall c :: c in acc ==> r.value[c] == acc[c]
    ensures r.Err? ==> (r.error in acc && r.error in TypologyCodes(seeds)) || Duplicated(seeds, r.error)
  {
    if |seeds| == 0 then Ok(acc)
    else if seeds[0].code in acc then Err(seeds[0].code)
    else
      var rest := BuildFrom(acc[seeds[0].code := seeds[0]], seeds[1..]);
      BuildStep(acc, seeds, rest);
      rest
  }

  lemma {:induction false} TypologyCodesCons(seeds: seq<Typology>)
    requires |seeds| > 0
    ensures TypologyCodes(seeds) == {seeds[0].code} + TypologyCodes(seeds[1..])
  {
    var tail := seeds[1..];
    forall c | c in TypologyCodes(seeds) ensures c in {seeds[0].code} + TypologyCodes(tail) {
      var x :| 0 <= x < |seeds| && seeds[x].code == c;
      if x > 0 { assert tail[x - 1].code == c; }
    }
    forall c | c in TypologyCodes(tail) ensures c in TypologyCodes(seeds) {
      var x :| 0 <= x < |tail| && tail[x].code == c;
      assert seeds[x + 1].code == c;
    }
  }

  /** The build succeeds on the seeds exactly when it succeeds on the tail after the head is stored. */
  lemma BuildStepOk(acc: TypologyStore, seeds: seq<Typology>)
    requires |seeds| > 0 && seeds[0].code !in acc
    ensures (DistinctCodes(seeds) && TypologyCodes(seeds) !! acc.Keys)
        <==> (DistinctCodes(seeds[1..]) && TypologyCodes(seeds[1..]) !! (acc.Keys + {seeds[0].code}))
  {
    var tail := seeds[1..];
    TypologyCodesCons(seeds);
    if DistinctCodes(tail) && TypologyCodes(tail) !! (acc.Keys + {seeds[0].code}) {
      forall x, y | 0 <= x < y < |seeds| ensures seeds[x].code != seeds[y].code {
        assert seeds[y].code in TypologyCodes(tail) by { assert tail[y - 1] == seeds[y]; }
      }
    }
    if DistinctCodes(seeds) && TypologyCodes(seeds) !! acc.Keys {
      forall c | c in TypologyCodes(tail) ensures c != seeds[0].code {
        var y :| 0 <= y < |tail| && tail[y].code == c;
        assert seeds[0].code != seeds[y + 1].code;
      }
    }
  }

  /** A code that fails the build of the tail after the head is stored also fails the build of the seeds. */
  lemma BuildStepErr(acc: TypologyStore, seeds: seq<Typology>, code: string)
    requires |seeds| > 0
    requires (code in acc[seeds[0].code := seeds[0]] && code in TypologyCodes(seeds[1..])) || Duplicated(seeds[1..], code)
    ensures (code in acc && code in TypologyCodes(seeds)) || Duplicated(seeds, code)
  {
    var tail := seeds[1..];
    TypologyCodesCons(seeds);
    if !Duplicated(tail, code) {
      if code == seeds[0].code {
        var y :| 0 <= y < |tail| && tail[y].code == code;
        assert seeds[0].code == seeds[y + 1].code;
      }
    } else {
      var x, y :| 0 <= x < y < |tail| && tail[x].code == code && tail[y].code == code;
      assert seeds[x + 1].code == seeds[y + 1].code;
    }
  }

  lemma {:induction false} BuildStep(acc: TypologyStore, seeds: seq<Typology>, rest: Result<TypologyStore, string>)
    requires KeyedByCode(acc) && |seeds| > 0 && seeds[0].code !in acc
    requires var acc' := acc[seeds[0].code := seeds[0]];
      && (rest.Ok? <==> DistinctCodes(seeds[1..]) && TypologyCodes(seeds[1..]) !! acc'.Keys)
      && (rest.Ok? ==> KeyedByCode(rest.value))
      && (rest.Ok? ==> rest.value.Keys == acc'.Keys + TypologyCodes(seeds[1..]))
      && (rest.Ok? ==> forall x :: 0 <= x < |seeds[1..]| ==> rest.value[seeds[1..][x].code] == seeds[1..][x])
      && (rest.Ok? ==> forall c :: c in acc' ==> rest.value[c] == acc'[c])
      && (rest.Err? ==> (rest.error in acc' && rest.error in TypologyCodes(seeds[1..])) || Duplicated(seeds[1..], rest.error))
    ensures rest.Ok? <==> DistinctCodes(seeds) && TypologyCodes(seeds) !! acc.Keys
    ensures rest.Ok? ==> KeyedByCode(rest.value)
    ensures rest.Ok? ==> rest.value.Keys == acc.Keys + TypologyCodes(seeds)
    ensures rest.Ok? ==> forall x :: 0 <= x < |seeds| ==> rest.value[seeds[x].code] == seeds[x]
    ensures rest.Ok? ==> forall c :: c in acc ==> rest.value[c] == acc[c]
    ensures rest.Err? ==> (rest.error in acc && rest.error in TypologyCodes(seeds)) || Duplicated(seeds, rest.error)
  {
    var tail := seeds[1..];
    TypologyCodesCons(seeds);
    BuildStepOk(acc, seeds);
    if rest.Ok? {
      forall x | 0 <= x < |seeds| ensures rest.value[seeds[x].code] == seeds[x] {
        if x > 0 { assert seeds[x] == tail[x - 1]; }
      }
    } else {
      BuildStepErr(acc, seeds, rest.error);
    }
  }

  /** The typology store of the seeds, or the duplicated code that makes the build throw. */
  function BuildTypologies(seeds: seq<Typology>): (r: Result<TypologyStore, string>)
    ensures r.Ok? <==> DistinctCodes(seeds)
    ensures r.Ok? ==> KeyedByCode(r.value)
    ensures r.Ok? ==> r.value.Keys == TypologyCodes(seeds)
    ensures r.Ok? ==> forall x :: 0 <= x < |seeds| ==> r.value[seeds[x].code] == seeds[x]
    ensures r.Err? ==> Duplicated(seeds, r.error)
  {
    BuildFrom(map[], seeds)
  }

  /** The typology registered under exactly `code` (case-sensitive), or null. */
  function GetTypology(store: TypologyStore, code: string): (r: Option<Typology>)
    ensures r.Some? <==> code in store
    ensures r.Some? ==> r.value == store[code]
    ensures r.Some? && KeyedByCode(store) ==> r.value.code == code
  {
    if code in store then Some(store[code]) else None
  }
}

=== FILE: pim_usecases.dfy ===
/** The product use cases: create a product, update its attributes. */
module PimUseCases {
  import opened Results
  import opened PimDomain
  import opened PimRepositories
  import opened Events

  datatype PimError =
    | ProductAlreadyExists
    | UnknownTypology
    | ProductNotFound
    | TypologyNotFound
    | Invalid(cause: ValidationError)

  datatype CreateCommand = CreateCommand(ean: string, name: string, typologyCode: string, attributes: Attrs)

  datatype UpdateCommand = UpdateCommand(ean: string, attributes: Attrs)

  /** The product store after a use case, the events it published, and whether it threw. */
  datatype PimResult = PimResult(products: ProductStore, events: seq<Event>, outcome: Outcome<PimError>)

  /** The error a create reports, in the order the checks run. */
  ghost function CreateError(products: ProductStore, typologies: TypologyStore, cmd: CreateCommand): Option<PimError> {
    if cmd.ean in products then Some(ProductAlreadyExists)
    else if cmd.typologyCode !in typologies then Some(UnknownTypology)
    else
      var fields := typologies[cmd.typologyCode].fields;
      if Conforms(fields, cmd.attributes) then None
      else Some(Invalid(ErrorOf(fields[FirstReject(fields, cmd.attributes)], cmd.attributes)))
  }

  /** The index of the first field rejecting `input`. */
  ghost function FirstReject(fields: seq<FormField>, input: Attrs): (x: nat)
    requires !Conforms(fields, input)
    ensures FirstRejectAt(fields, input, x)
  {
    FirstRejectExists(fields, input);
    var x :| FirstRejectAt(fields, input, x);
    x
  }

  /** A failed update reports the error of the first rejecting field. */
  lemma ReportsFirstReject(typology: Typology, input: Attrs, attrs: Attrs)
    requires UpdateAttributes(typology, input, attrs).1.Fail?
    ensures !Conforms(typology.fields, input)
    ensures UpdateAttributes(typology, input, attrs).1.error
              == ErrorOf(typology.fields[FirstReject(typology.fields, input)], input)
  {
    var r := UpdateAttributes(typology, input, attrs);
    var x :| FirstRejectAt(typology.fields, input, x) && r.1.error == ErrorOf(typology.fields[x], input);
    FirstRejectUnique(typology.fields, input, x, FirstReject(typology.fields, input));
  }

  /**
   * Creates a product: rejects a known EAN, then an unknown typology code,
   * then attributes the typology rejects; otherwise stores the product and
   * publishes one creation event. A failed create stores and publishes
   * nothing; the partially filled product is dropped.
   */
  function CreateProduct(products: ProductStore, typologies: TypologyStore, cmd: CreateCommand): (r: PimResult)
    ensures r.outcome.Fail? <==> CreateError(products, typologies, cmd).Some?
    ensures r.outcome.Fail? ==> r.outcome.error == CreateError(products, typologies, cmd).value
    ensures r.outcome.Fail? ==> r.products == products && r.events == []
    ensures r.outcome.Pass? ==> r.events == [ProductCreated(cmd.ean)]
    ensures r.outcome.Pass? ==> r.products.Keys == products.Keys + {cmd.ean}
    ensures r.outcome.Pass? ==> forall e :: e in products ==> r.products[e] == products[e]
    ensures r.outcome.Pass? ==> var p := r.products[cmd.ean];
              p.ean == cmd.ean && p.name == cmd.name && p.typologyCode == typologies[cmd.typologyCode].code
  {
    if ExistsProduct(products, cmd.ean) then PimResult(products, [], Fail(ProductAlreadyExists))
    else match GetTypology(typologies, cmd.typologyCode)
      case None => PimResult(products, [], Fail(UnknownTypology))
      case Some(typology) =>
        var product := NewProduct(cmd.ean, cmd.name, typology.code);
        var (attrs, outcome) := UpdateAttributes(typology, cmd.attributes, product.attributes);
        if outcome.Fail? then
          ReportsFirstReject(typology, cmd.attributes, product.attributes);
          PimResult(products, [], Fail(Invalid(outcome.error)))
        else
          PimResult(AddProduct(products, product.(attributes := attrs)), [ProductCreated(product.ean)], Pass)
  }

  /** A created product holds exactly the attributes it was created with. */
  lemma CreatedAttributesAreInput(products: ProductStore, typologies: TypologyStore, cmd: CreateCommand)
    requires CreateProduct(products, typologies, cmd).outcome.Pass?
    ensures CreateProduct(products, typologies, cmd).products[cmd.ean].attributes == cmd.attributes
  {
    var typology := typologies[cmd.typologyCode];
    var (attrs, outcome) := UpdateAttributes(typology, cmd.attributes, map[]);
    MergedIntoNothing(attrs, cmd.attributes, typology.fields);
  }

  /**
   * Updates the attributes of a stored product against the typology
   * currently registered under its code. The product is changed in place,
   * so writes made before a validation failure stay stored. Nothing is
   * published.
   */
  function UpdateProductAttributes(products: ProductStore, typologies: TypologyStore, cmd: UpdateCommand): (r: PimResult)
    ensures r.events == []
    ensures cmd.ean !in products ==> r.outcome == Fail(ProductNotFound) && r.products == products
    ensures cmd.ean in products && products[cmd.ean].typologyCode !in typologies ==>
              r.outcome == Fail(TypologyNotFound) && r.products == products
    ensures r.products.Keys == products.Keys
    ensures forall e :: e in products && e != cmd.ean ==> r.products[e] == products[e]
    ensures cmd.ean in products ==>
              var (p, q) := (products[cmd.ean], r.products[cmd.ean]);
              q.ean == p.ean && q.name == p.name && q.typologyCode == p.typologyCode
    ensures cmd.ean in products && products[cmd.ean].typologyCode in typologies ==>
              var (p, t) := (products[cmd.ean], typologies[products[cmd.ean].typologyCode]);
              && (r.outcome.Pass? <==> Conforms(t.fields, cmd.attributes))
              && r.products[cmd.ean].attributes == UpdateAttributes(t, cmd.attributes, p.attributes).0
              && (!Conforms(t.fields, cmd.attributes) ==>
                    r.outcome == Fail(Invalid(ErrorOf(t.fields[FirstReject(t.fields, cmd.attributes)], cmd.attributes))))
  {
    match GetProduct(products, cmd.ean)
    case None => PimResult(products, [], Fail(ProductNotFound))
    case Some(product) =>
      match GetTypology(typologies, product.typologyCode)
      case None => PimResult(products, [], Fail(TypologyNotFound))
      case Some(typology) =>
        var (attrs, outcome) := UpdateAttributes(typology, cmd.attributes, product.attributes);
        var stored := products[cmd.ean := product.(attributes := attrs)];
        if outcome.Fail? then
          ReportsFirstReject(typology, cmd.attributes, product.attributes);
          PimResult(stored, [], Fail(Invalid(outcome.error)))
        else
          PimResult(stored, [], Pass)
  }

  /** No two fields of the schema share a name. */
  predicate UniqueNames(fields: seq<FormField>) {
    forall x, y :: 0 <= x < y < |fields| ==> fields[x].name != fields[y].name
  }

  /**
   * The catalog invariant: each product is stored under its EAN, names a
   * registered typology, and its attributes satisfy that typology.
   */
  ghost predicate Consistent(products: ProductStore, typologies: TypologyStore) {
    forall e :: e in products ==>
      && products[e].ean == e
      && products[e].typologyCode in typologies
      && Conforms(typologies[products[e].typologyCode].fields, products[e].attributes)
  }

  /** A failed update of conforming attributes keeps them conforming, when field names are unique. */
  lemma FailedUpdateKeepsConformance(typology: Typology, input: Attrs, attrs: Attrs)
    requires UniqueNames(typology.fields) && Conforms(typology.fields, attrs)
    requires UpdateAttributes(typology, input, attrs).1.Fail?
    ensures Conforms(typology.fields, UpdateAttributes(typology, input, attrs).0)
  {
    var fields := typology.fields;
    var after := UpdateAttributes(typology, input, attrs).0;
    var i :| FirstRejectAt(fields, input, i) && Overlaid(attrs, after, input, fields[..i]);
    forall x | 0 <= x < |fields|
      ensures FieldOk(fields[x], after)
    {
      KeepsFieldOk(fields, input, attrs, after, i, x);
    }
  }

  lemma KeepsFieldOk(fields: seq<FormField>, input: Attrs, attrs: Attrs, after: Attrs, i: nat, x: nat)
    requires UniqueNames(fields) && Conforms(fields, attrs)
    requires i <= |fields| && Conforms(fields[..i], input)
    requires Overlaid(attrs, after, input, fields[..i])
    requires x < |fields|
    ensures FieldOk(fields[x], after)
  {
    var f := fields[x];
    assert FieldOk(f, attrs);
    if f.name in Names(fields[..i]) && Given(input, f.name) {
      var g :| g in fields[..i] && g.name == f.name;
      var y :| 0 <= y < i && fields[..i][y] == g;
      assert fields[y] == g;
      assert y == x;
      assert FieldOk(fields[..i][y], input);
      assert after[f.name] == input[f.name];
    } else {
      assert f.name in after <==> f.name in attrs;
      assert f.name in after ==> after[f.name] == attrs[f.name];
    }
  }

  /** Both use cases keep the catalog consistent, whatever their outcome. */
  lemma CreateKeepsConsistent(products: ProductStore, typologies: TypologyStore, cmd: CreateCommand)
    requires KeyedByCode(typologies) && Consistent(products, typologies)
    ensures Consistent(CreateProduct(products, typologies, cmd).products, typologies)
  {
    var r := CreateProduct(products, typologies, cmd);
    if r.outcome.Pass? {
      var t := typologies[cmd.typologyCode];
      SuccessConforms(t, cmd.attributes, map[]);
      forall e | e in r.products
        ensures r.products[e].ean == e && r.products[e].typologyCode in typologies
        ensures Conforms(typologies[r.products[e].typologyCode].fields, r.products[e].attributes)
      {
        if e != cmd.ean {
          assert r.products[e] == products[e];
        }
      }
    }
  }

  lemma UpdateKeepsConsistent(products: ProductStore, typologies: TypologyStore, cmd: UpdateCommand)
    requires forall c :: c in typologies ==> UniqueNames(typologies[c].fields)
    requires Consistent(products, typologies)
    ensures Consistent(UpdateProductAttributes(products, typologies, cmd).products, typologies)
  {
    if cmd.ean in products {
      var p := products[cmd.ean];
      var t := typologies[p.typologyCode];
      var u := UpdateAttributes(t, cmd.attributes, p.attributes);
      if u.1.Pass? {
        SuccessConforms(t, cmd.attributes, p.attributes);
      } else {
        FailedUpdateKeepsConformance(t, cmd.attributes, p.attributes);
      }
    }
  }
}

=== FILE: results.dfy ===
/** Failure-carrying values shared by every component of the model. */
module Results {

  /** A value or its absence; stands in for a nullable reference. */
  datatype Option<+T> = None | Some(value: T)

  /** The outcome of an operation that either completes or throws `error`. */
  datatype Outcome<+E> = Pass | Fail(error: E)

  /** A computed value or the error that prevented it. */
  datatype Result<+T, +E> = Ok(value: T) | Err(error: E)
}

=== FILE: strings.dfy ===
/**
 * Character classes and string helpers used by the file-name pattern, the
 * format handlers and the media store. Characters are ASCII-approximated:
 * word characters are `[A-Za-z0-9_]` and case folding maps `A-Z` to `a-z`.
 */
module Strings {

  /** The regular-expression class `\w`, restricted to ASCII. */
  predicate IsWord(c: char) {
    ('a' <= c <= 'z') || ('A' <= c <= 'Z') || ('0' <= c <= '9') || c == '_'
  }

  /** Lower-cases one ASCII letter; every other character is kept. */
  function Lower(c: char): (r: char)
    ensures 'A' <= c <= 'Z' ==> 'a' <= r <= 'z' && r as int == c as int + 32
    ensures !('A' <= c <= 'Z') ==> r == c
  {
    if 'A' <= c <= 'Z' then (c as int + 32) as char else c
  }

  /** Lower-cases a whole string, character by character. */
  function LowerStr(s: string): (r: string)
    ensures |r| == |s|
    ensures forall x :: 0 <= x < |s| ==> r[x] == Lower(s[x])
  {
    seq(|s|, x requires 0 <= x < |s| => Lower(s[x]))
  }

  /** Ordinal comparison that ignores ASCII case. */
  predicate EqualsIgnoreCase(a: string, b: string) {
    |a| == |b| && forall x :: 0 <= x < |a| ==> Lower(a[x]) == Lower(b[x])
  }

  lemma EqualsIgnoreCaseIsLowerEquality(a: string, b: string)
    ensures EqualsIgnoreCase(a, b) <==> LowerStr(a) == LowerStr(b)
  {
    if LowerStr(a) == LowerStr(b) {
      forall x | 0 <= x < |a|
        ensures Lower(a[x]) == Lower(b[x])
      {
        assert LowerStr(a)[x] == LowerStr(b)[x];
      }
    }
  }

  /**
   * The last path component of `p`: what follows its last '/', or `p`
   * itself when it has no '/'.
   */
  function FileName(p: string): (r: string)
    ensures |r| <= |p|
    ensures '/' !in r
    ensures |r| == |p| || p[|p| - |r| - 1] == '/'
  {
    if |p| == 0 then ""
    else if p[|p| - 1] == '/' then ""
    else FileName(p[..|p| - 1]) + [p[|p| - 1]]
  }

  /** The file name is the part of `p` after its last '/'. */
  lemma {:induction false} FileNameIsSuffix(p: string)
    decreases |p|
    ensures FileName(p) == p[|p| - |FileName(p)|..]
  {
    if |p| > 0 && p[|p| - 1] != '/' {
      var q := p[..|p| - 1];
      FileNameIsSuffix(q);
      assert q[|q| - |FileName(q)|..] + [p[|p| - 1]] == p[|p| - |FileName(p)|..];
    }
  }

  /** A name without '/' is its own file name, and only such a name is. */
  lemma {:induction false} FileNameOfPlain(p: string)
    ensures FileName(p) == p <==> '/' !in p
  {
    FileNameIsSuffix(p);
  }

  /** Taking the file name twice changes nothing. */
  lemma FileNameIdempotent(p: string)
    ensures FileName(FileName(p)) == FileName(p)
  {
    FileNameOfPlain(FileName(p));
  }
}

=== FILE: wiring.dfy ===
/**
 * The composition the host sets up: the seeded typologies, the two format
 * handlers, the auto-link reactor as the one bus subscriber, and the two
 * parsers the media use cases apply. The lemmas follow an upload through
 * the bus to the link it produces.
 */
module Wiring {
  import opened Results
  import opened Strings
  import opened Events
  import opened EventBus
  import opened FileNamePattern
  import opened PimDomain
  import opened PimRepositories
  import opened PimUseCases
  import opened DamDomain
  import opened DamRepositories
  import opened DamUseCases
  import opened FileNameExamples

  /** Handlers in registration order: JPEG first, then PDF. */
  const Handlers: seq<Handler> := [JpegHandler, PdfHandler]

  /** The bus subscribers: the auto-link reactor only. */
  const Subscribers: seq<Subscriber> := [AutoLinker]

  const Textile := Typology("TEXTILE", "Textile", [
    FormField("size", Text, true),
    FormField("color", Text, false),
    FormField("material", Text, false),
    FormField("price", Number, true)
  ])

  const Electro := Typology("ELECTRO", "Electronic", [
    FormField("cpu", Text, true),
    FormField("ramGb", Number, true),
    FormField("batteryMah", Number, false),
    FormField("price", Number, true)
  ])

  const Seeds: seq<Typology> := [Textile, Electro]

  /** The seeded typologies have distinct codes, so the store builds and holds both. */
  lemma SeedsBuild()
    ensures var r := BuildTypologies(Seeds);
            && r.Ok?
            && r.value.Keys == {"TEXTILE", "ELECTRO"}
            && r.value["TEXTILE"] == Textile && r.value["ELECTRO"] == Electro
  {
    assert Seeds[0].code == "TEXTILE" && Seeds[1].code == "ELECTRO";
    assert DistinctCodes(Seeds);
    assert TypologyCodes(Seeds) == {"TEXTILE", "ELECTRO"};
  }

  /**
   * Each seeded typology names every field once, which is what
   * `UpdateKeepsConsistent` asks of a typology.
   */
  lemma SeedsHaveUniqueNames()
    ensures forall t :: t in Seeds ==> UniqueNames(t.fields)
  {
    assert UniqueNames(Textile.fields);
    assert UniqueNames(Electro.fields);
  }

  /** The batch upload as wired. */
  function Upload(files: seq<string>, s: DamState): UploadResult {
    UploadBatch(Parse, Handlers, Subscribers, files, s)
  }

  /** The batch auto-link as wired. */
  function AutoLink(files: seq<string>, s: DamState): DamState {
    AutoLinkBatch(ParseCodes, files, s)
  }

  /**
   * Uploading the example name into an empty store stores it as media 0
   * and, through the bus, links it as link 1 under ean "12345" and sku
   * "56789_front".
   */
  lemma UploadExample(n: string)
    requires n == Example
    ensures var r := Upload([n], DamState(EmptyStore, 0));
            && r.outcome.Pass?
            && r.state.store.byFile == map[n := Media(0, n, "12345", "56789_front", "jpg")]
            && r.state.store.links == [MediaLink(1, "12345", "56789_front", 0)]
  {
    ParseExample(n);
    ExampleIsPlain(n);
    FileNameOfPlain(n);
    PlainNameIsLinked(Parse, Handlers, n, DamState(EmptyStore, 0));
  }

  /** A product creation event reaches the reactor and changes nothing on the media side. */
  lemma ProductCreatedLeavesMediaAlone(ean: string, s: DamState)
    ensures Publish(Subscribers, HandleEvent, ProductCreated(ean), s).state == s
    ensures !Publish(Subscribers, HandleEvent, ProductCreated(ean), s).faulted
  {
    PublishToInertSubscribers(Subscribers, HandleEvent, ProductCreated(ean), s);
  }

  /**
   * Auto-linking a stored name without a directory part adds one link with
   * the codes the code pattern finds.
   */
  lemma AutoLinkStoredName(file: string, s: DamState)
    requires ParseCodes(file).Some? && '/' !in file && file in s.store.byFile
    ensures var c := ParseCodes(file).value;
            var r := AutoLink([file], s);
            && r.store.byFile == s.store.byFile
            && r.store.links == s.store.links + [MediaLink(s.nextId, c.ean, c.sku, s.store.byFile[file].id)]
            && r.nextId == s.nextId + 1
  {
    var c := ParseCodes(file).value;
    FileNameOfPlain(file);
    AutoLinkBatchAppendsTargets(ParseCodes, [file], s);
    assert [file][1..] == [];
    assert OneTarget(ParseCodes, s.store.byFile, file) == [(c.ean, c.sku, s.store.byFile[file].id)];
    assert LinkTargets(ParseCodes, s.store.byFile, [file]) == [(c.ean, c.sku, s.store.byFile[file].id)];
    LinksFromSingle(s.nextId, (c.ean, c.sku, s.store.byFile[file].id));
  }
}
